=== FILE: README.md ===
# Document-catching game: the simulation core

A browser arcade game in which documents of four categories (high, medium,
low, no-value) fall from the top of a canvas. The player, or in ai mode a
pair of autonomous agents, shoots them down. Each hit document is
"processed" and its value is credited to score and revenue. A document that
falls past the bottom edge is "missed". A match lasts 60 seconds and ends
early once more than 20 documents have been missed.

The repository carries two copies of the engine, `game.js` and
`public/game.js`. They share the structure and differ in constants and in a
few behaviours. This model is one engine parameterised by a `Config` record,
with one instance per copy (`GameConfig.GameJs`, `GameConfig.PublicGameJs`).
The record covers:

- field width;
- difficulty scaling with time;
- document and player speeds;
- lane homing step;
- sniper policy, range and interval;
- whether update() requires the game screen;
- whether start resets the match;
- whether restart drops the agents.

Modules, in dependency order:

- `GameConfig`: modes, categories, the constants and the two instances.
- `Values`: category and value draws, the value bands, and the lane for a value.
- `Difficulty`: the match clock and the spawn and speed multipliers.
- `Entities`: documents with lane homing, bullets, particles, the player and the shot cooldown.
- `Collision`: the bullet and document collision pass and value conservation.
- `Agents`: the sorter (MainAgent with its lassos) and the sniper (SubAgent).
- `Engine`: the game state, its invariant, one tick of update(), and the start, restart and mode commands.

Positions and speeds are reals. Times are integer milliseconds. The clock
(`Date.now`) and every `Math.random` draw are parameters of the functions
that use them. A draw is a real in [0, 1). A document's identity is a
JavaScript object reference in the source. In the model it is an `id`
taken from the game's `nextId` counter, which no command resets. A lasso
that outlives its match (game.js keeps the sorter across a restart) still
names an object of the old match, so it can never catch a new document
(`Engine.RestartedLassosStayStale`).

Where the game's documented behaviour and its code disagree, the model
follows the code:

- A bullet that overlaps several documents removes the one with the highest
  index, because the inner loop runs backwards. It is not the first one in
  array order.
- The player is not clamped to the field. Its position is only checked
  before each step, so it can end up slightly outside.
- `start` in `public/game.js` does not reset counters, lists or agents.
- The aimed bullet of the source has no guard for a zero distance to its
  target. In the model the aimed velocity is an input.

## Model

| member | source | states |
|---|---|---|
| Values.CategoryFromDraw | game.js:236-238 | each of the four categories is chosen for exactly one quarter of the draw range [0, 1), in the order high, medium, low, no-value |
| Values.DrawValueInBand | game.js:613-621 | a document's value is always in its category's band: high 1000..1499, medium 500..998, low 100..498, no-value exactly 0 |
| Values.BandIsReachable | game.js:613-621 | every integer in a category's band is the value of some draw, so the bands are exact and not just bounds |
| Values.LaneMatchesCategory | game.js:813-829 | a document whose value is in its band is routed to its category's lane: no-value 100, low 200, medium 400, high 600 |
| Values.LaneMonotone | game.js:816-824 | a more valuable document is never routed to a lane further left |
| Difficulty.TimeLeft | game.js:394-397 | remaining time is never negative, never exceeds 60 s once the clock has started, and is zero exactly when 60 s have elapsed |
| Difficulty.TimeLeftNonIncreasing | game.js:394-397 | remaining time never increases as elapsed time grows |
| Difficulty.Progress | game.js:257 | match progress is in [0, 1]; it is 0 exactly at full time and 1 exactly when time is up |
| Difficulty.MultipliersBounded | game.js:256-263 | the spawn multiplier is in [1, 3] and the speed multiplier in [1, 2.5]; both are 1 at the start and at their maximum when time is up; without time scaling (public/game.js) the spawn chance is the flat 0.02 |
| Difficulty.MultipliersMonotone | game.js:244-247 | neither the spawn chance nor a new document's speed factor ever decreases as the match goes on |
| Entities.Home | game.js:623-635 | a lassoed document's horizontal step toward its lane moves at most the homing step, never overshoots the lane, lands on it when within one step and otherwise moves a full step |
| Entities.HomingArrives | game.js:626-634 | a document at most n homing steps from its lane is on the lane after n updates, and one already on it stays there |
| Entities.MoveDocument | public/game.js:511-523 | a document falls by its speed each update; identity, category, value and flags are unchanged; the horizontal move is homing only when a lane is set |
| Entities.SweepDocuments | game.js:279-291 | kept plus missed equals the documents before the pass; every kept document is still on the field; every moved document still on the field is kept; value bands are preserved |
| Entities.SweepIsFilter | game.js:279-291 | as a multiset, the kept documents are exactly the moved documents still on the field, each kept as often as it occurs; no document below the field is kept |
| Entities.SweepCountsFallen | game.js:279-291 | the miss count equals the number of moved documents below the field, counted by an independent definition (Fallen) |
| Entities.SweepKeepsIdentity | game.js:279-291 | every kept document is one of the input documents after its move |
| Entities.AdvanceBullets | game.js:273-277 | every bullet that survives the pass is below the top limit of -10, and every moved bullet below that limit survives |
| Entities.AdvanceBulletsIsFilter | game.js:273-277 | as a multiset, the surviving bullets are exactly the moved bullets below the top limit, each as often as it occurs; none above it survives |
| Entities.PlayerBullet | game.js:321-333 | the player's bullet is centred on the player and rises at speed 8; its horizontal drift is 0 in ai mode and in [-1.5, 1.5) in manual mode |
| Entities.AgeParticles | game.js:301-305 | the pass never adds particles, and lives in 1..30 stay in 1..30 |
| Entities.AgeParticlesIsFilter | game.js:301-305 | as a multiset, the surviving particles are exactly the particles with one tick less that still have life left, each as often as it occurs |
| Entities.Lifespan | game.js:978-982 | a particle with L ticks of life has L - k left after k < L passes and is gone after exactly L passes |
| Entities.ParticleLifespan | game.js:967-982 | a new particle survives 29 passes and is gone on the 30th |
| Entities.Burst | game.js:365-382 | an effect adds the requested number of particles, all with full life |
| Entities.MovePlayer | public/game.js:394-402 | the player moves by exactly one speed step or not at all, and only x changes. With only left held it steps left exactly when x > 0. With only right held it steps right exactly when x is below the right edge minus the player width. With both held, the right test sees the x left by the left test, so the two steps cancel or one of them applies. With no arrow held it stays put |
| Entities.PlayerStaysNearField | public/game.js:394-402 | a player less than one step outside the field stays less than one step outside it |
| Entities.PlayerCanLeaveField | public/game.js:394-402 | with public/game.js's constants a player at x = 2 pressing left ends at x = -3 (no clamping) |
| Entities.ShotCooldown | public/game.js:404-407 | the cooldown is strict: a shot exactly 100 ms (ai) or 500 ms (manual) after the last is refused and one ms later allowed; any shot manual mode allows, ai mode allows too |
| Collision.LastHit | game.js:340-353 | the inner loop finds the highest-index document the bullet overlaps; it finds none exactly when the bullet overlaps none |
| Collision.Resolve | game.js:336-356 | every hit pairs a bullet with a document it overlaps; the hits are exactly the bullets and documents removed; surviving documents were all there before |
| Collision.ResolvePartitions | game.js:336-356 | as multisets, surviving bullets plus hit bullets are the original bullets, and surviving documents plus hit documents are the original documents |
| Collision.ResolveConservesValue | game.js:345-351 | the value credited by the hits is exactly the value that left the field |
| Collision.TieGoesToLastDocument | public/game.js:248-268 | a bullet that overlaps two documents removes the later one and leaves the earlier |
| Collision.ResolveFollowsLastHit | game.js:336-356 | given each hit's bullet, the hit's document is the one LastHit picks for that bullet among the documents still present after the earlier hits; removing the hit documents one by one from the original list gives exactly the surviving documents. Which bullet comes when is stated by Collision.ResolveIsTrace |
| Collision.ResolveIsTrace | game.js:336-356 | the pass is a run of the two nested loops: the hits name their bullets by index from the last bullet down to the first, with each hit's bullet being the one at that index. Each hit follows LastHit as above. A bullet without a hit overlapped none of the documents present when the outer loop reached it. The surviving bullets are exactly the unhit ones, in their original order |
| Collision.TraceIsUnique | game.js:336-356 | any hit sequence that is such a run equals the pass's own, so the trace pins the outcome down |
| Collision.ResolveComplete | game.js:336-356 | after the pass no surviving bullet overlaps any surviving document |
| Collision.NoOverlapNoHit | game.js:358-363 | when no bullet overlaps any document the pass changes nothing |
| Agents.LassoPick | game.js:692-702 | the sorter selects nothing exactly when no document is uncaptured in the band 50 < y < 300; otherwise it selects a most valuable one, the last such in array order |
| Agents.CapturePicksMostValuable | game.js:697-702 | given eligible documents worth 50, 1200 and 500, the sorter lassos the one worth 1200 |
| Agents.CaptureStep | game.js:697-706 | when more than 300 ms have passed and a document is eligible, exactly the selected document is flagged lassoed and a lasso toward it is added; otherwise nothing changes |
| Agents.RouteToLane | game.js:813-829 | the target document gets the lane of its value and stays lassoed; no other document changes |
| Agents.AdvanceLassos | game.js:708-712 | each lasso still short of 100 is kept with progress + 4; each that reaches 100 routes its target; no lasso left is at 100 or beyond; the list never grows; documents change only by routing. That completing lassos are dropped and nothing else is kept is stated by Agents.AdvanceLassosAdvances |
| Agents.AdvanceLassosAdvances | game.js:708-712 | the lasso list after the pass is exactly Advanced: every lasso short of completion advanced by 4, in the original order, with every completing lasso gone and nothing added |
| Agents.AdvanceLassosTouchesOnlyTargets | game.js:708-712 | a document that no completing lasso targets leaves the lasso pass unchanged |
| Agents.AdvanceLassosTargetsBelow | game.js:708-712 | the lasso pass never retargets a lasso, so a bound on the targets' ids survives it |
| Agents.MainAgentStep | game.js:691-713 | the sorter's update never moves a document and never changes its speed, identity or value. It never clears a lassoed flag, and changes a lane target only to the lane the value selects. When it is due, it stamps the time and flags the selected document, and the lasso list becomes the advanced old lassos followed by one new lasso at progress 4 toward that document. Otherwise it keeps its time, and the list is exactly the advanced old lassos. A completing lasso routes its target. A selected document no completing lasso targets changes only in its lassoed flag. Every other document is unchanged. Every lasso stays below 100 |
| Agents.MainAgentStepTargetsBelow | game.js:691-713 | the sorter only throws lassos at documents it is given, so lasso targets stay among the ids of spawned documents |
| Agents.LassoLifetime | game.js:803-811 | a new lasso is in flight with progress 4k after k updates for k < 25, and on the 25th update it is gone and its target is routed |
| Agents.SniperPick | game.js:867-883 | the sniper selects nothing exactly when no document is eligible; otherwise it selects one of lowest rank (low, medium, high, no-value), the first such in array order |
| Agents.SniperPrefersLow | game.js:876-883 | with game.js's constants, given medium, low and high documents in the left zone, the sniper aims at the low one |
| Agents.LowOnlyPicksFirstLow | public/game.js:721-728 | in public/game.js the sniper's target is always a low document, the first eligible one |
| Agents.SubAgentStep | public/game.js:721-737 | the sniper fires one bullet from its muzzle exactly when its interval has strictly passed and some document is eligible, and then records the time; otherwise nothing changes |
| Engine.Initial | public/game.js:2-25 | the constructed game is stopped, in manual mode, with no documents and no agents, and satisfies the invariant |
| Engine.NewDocument | game.js:236-251 | a spawned document starts at y = -60 with x in [0, width - 60], a value in its band, no lasso, no lane, the ai-mode classified flag, and speed in [base, base + spread) times the speed multiplier |
| Engine.SpawnSpeed | game.js:603 | a document's speed is in [2, 5) times the multiplier in game.js and in [1, 3) in public/game.js |
| Engine.SpawnStep | public/game.js:159-176 | a tick spawns a document exactly when the spawn draw is below the spawn chance; the new document is appended with id nextId, which then rises by one; total rises by exactly the number of documents added; nothing else changes |
| Engine.PlayerStep | game.js:265-271 | the player is MovePlayer's result, except for lastShot. The player fires exactly when fire is held and the cooldown has passed. A shot appends exactly PlayerBullet from the moved player and stamps lastShot. Otherwise the bullets and lastShot are unchanged |
| Engine.MotionStep | game.js:273-291 | missed rises by exactly the number of moved documents below the field; as multisets the documents left are the moved documents still on the field and the bullets left are the moved bullets below the top limit; each kept document is an input document after its move; the particles are the old ones, in order and unchanged, followed by 5 fresh particles with 30 ticks of life per miss; bands and particle lives are preserved |
| Engine.SorterStep | game.js:293-296 | with no sorter nothing changes; otherwise the sorter's turn does exactly what MainAgentStep promises (the exact lasso list, no retargeting, no moves), keeping the document count and bands |
| Engine.SniperStep | game.js:297-299 | with no sniper nothing changes; otherwise the sniper fires its muzzle bullet and stamps the time exactly when it is due, and nothing changes when it is not |
| Engine.CollisionStep | game.js:336-356 | processed rises by the number of hits, and docs and bullets each lose that many. There is a run of the nested loops (Collision.IsTrace: bullets checked from last to first, each hit following LastHit) whose hits remove exactly the lost documents and whose unhit bullets are exactly the surviving ones, in order. No surviving bullet overlaps a surviving document. The particles are the old ones, unchanged, followed by 10 fresh particles with 30 ticks of life per hit. Score and revenue both rise by exactly the value removed, and score never falls |
| Engine.ParticleStep | game.js:301-305 | as a multiset the particles left are exactly the particles one tick older that still have life, each kept as often as it occurred; nothing else changes |
| Engine.EndStep | game.js:310-318 | remaining time follows the clock, and the match keeps running exactly when at most 20 documents are missed and time is left |
| Engine.Tick | game.js:253-319 | an inactive game is unchanged; otherwise it ends exactly on the miss limit or time-out; at most one spawn per tick; total grows by processed plus missed plus the change in the document count; nextId rises with total |
| Engine.TickPreservesInv | game.js:253-319 | every tick keeps total = processed + missed + on-field documents, value bands, particle lives, lasso progress below 100, score = revenue >= 0, the time bound, document ids below nextId and lasso targets below nextId |
| Engine.TickKeepsIds | game.js:253-319 | within a tick every document present keeps an id in [lo, nextId) when all had one before, and nextId never falls |
| Engine.RunKeepsIds | game.js:253-319 | over any sequence of ticks every document present has an id of at least lo when every document at the start had |
| Engine.RestartedLassosStayStale | game.js:216-234 | the lassos game.js keeps across a restart never name any document of the new match, however many ticks follow |
| Engine.TickTimeNonIncreasing | game.js:394-397 | remaining time never goes up from one tick to the next while the clock moves forward |
| Engine.ResetMatch | game.js:216-234 | a reset match is running with the clock at now, a full 60 s, zero counters, empty lists and a new player; mode, agents and the id counter are kept |
| Engine.SetMode | public/game.js:96-111 | ai mode gets fresh agents and manual mode gets none; nothing else changes |
| Engine.ToggleMode | public/game.js:122-124 | toggling switches the mode and changes nothing but the mode and the agents; both agents are present exactly in ai mode |
| Engine.ToggleTwice | game.js:176-178 | toggling twice restores the mode and changes nothing but the agents: fresh sorter and sniper in ai mode, none in manual mode |
| Engine.Start | game.js:180-214 | starting runs the clock from now with a full 60 s. In game.js it also zeroes score, revenue and the three counters, empties bullets, documents and particles, and places a new player. It creates a fresh sorter and sniper in ai mode and removes both in manual mode. In public/game.js it changes nothing else |
| Engine.Restart | public/game.js:136-157 | restart runs the clock from now with a full 60 s, zeroes the counters, empties the lists, places a new player and shows the game screen, keeping the mode and the id counter; public/game.js also drops both agents, game.js keeps them |
| Engine.RestartAiLosesAgents | public/game.js:63-66 | in public/game.js the restart-in-ai-mode button leaves the game in ai mode with no agents |
| Engine.RestartIntended | game.js:83-86 | the intended restart gives a fresh match, with a new player on the game screen, whose agents are present exactly in ai mode, freshly created, and satisfies the invariant |
| Engine.GameJsRestartAsIntended | game.js:216-234 | with game.js's constants both restart buttons already behave as intended |

## Left out

- Rendering, the DOM, screens other than the game screen, metrics text, the name entry, the time bar and the animation loop are not modelled. They are presentation only.
- `Date.now` and `Math.random` are not modelled as such. The current time and the draws are inputs to each step.
- Agents.SubAgentStep: the aimed bullet's velocity, normalised `(dx, dy) * 8 / sqrt(dx² + dy²)`, is an input to the step. The contract does not relate it to the selected document. That relation could be stated without a square root (parallel to `(dx, dy)`, same signs, squared length 64), but it is not modelled.
- Particle position, velocity and colour are not modelled. Only each particle's life and how many are created matter to the engine.
- The lasso's start point, the agents' positions and sizes, and render state are not modelled. They only feed drawing.
- The screen change and final-stats text of `gameOver` are not modelled. Only `running` becoming false is.
- The keys map is reduced to three booleans: left, right and fire.
- `lastDocumentSpawn`, `gameSpeed`, `aiShootCooldown` and `aiShootInterval` are not modelled. They are written or declared but never read by the engine.
- The canvas size is not modelled; it comes from the page markup. The game.js instance assumes 1200 x 600, as its comments and defaults do. The public/game.js instance assumes 800 x 600, matching its hard-coded player bound.
- Floating-point rounding of JavaScript numbers is not modelled. Arithmetic is exact over the reals, with `Math.floor` as `.Floor`.
- Engine.TickPreservesInv: the invariant does not include uniqueness of document ids, so the proof does not rely on it. Lasso routing marks every document with the target's id, which is exactly one when ids are unique.
- Entities.SweepDocuments: states the kept documents as a multiset (Entities.SweepIsFilter), not that their relative order is preserved.
- Entities.AdvanceBullets: states the surviving bullets as a multiset (Entities.AdvanceBulletsIsFilter), not that their relative order is preserved.
- Entities.AgeParticles: states the surviving particles as a multiset (Entities.AgeParticlesIsFilter), not that their relative order is preserved.
- Agents.AdvanceLassos: its own contract does not pin the lasso list exactly, to keep the recursive definition cheap to check; Agents.AdvanceLassosAdvances states the exact list.
- Collision.Resolve: its own contract states the hits and the survivors by membership and count only; the exact surviving bullets and documents, in order, are stated by Collision.ResolveIsTrace.
- Engine.CollisionStep: the list of hits is not part of the game state, so the contract states that a run of the loops with the stated properties exists; Collision.TraceIsUnique shows there is only one.
- Engine.TickPreservesInv: requires the clock not to be behind the match start, which `Date.now` guarantees in practice.

## Findings

| source | as written | input that shows it | evidently intended | confidence | as-written member | corrected member |
|---|---|---|---|---|---|---|
| public/game.js:136-157 | restart() sets both agents to null whatever the mode, and the restart-in-ai-mode button calls setMode('ai') immediately before it | click the restart-in-ai-mode button after a match | a new ai-mode match with a fresh sorter and sniper, as game.js's restart gives | medium, not executed | Engine.RestartAiLosesAgents | Engine.RestartIntended |

=== FILE: agents.dfy ===
/** The two autonomous agents of ai mode: the sorter (MainAgent with its
    Lassos), which captures the most valuable document in its band and routes
    it to a lane, and the sniper (SubAgent), which fires at one document. */
module Agents {
  import opened GameConfig
  import opened Values
  import opened Entities

  /** A lasso on its way to the document with id `targetId`. */
  datatype Lasso = Lasso(targetId: nat, progress: int)

  datatype MainAgent = MainAgent(lastLasso: int, lassos: seq<Lasso>)

  datatype SubAgent = SubAgent(lastShot: int)

  /** Agents as `new MainAgent()` / `new SubAgent()` create them. */
  function FreshMainAgent(): MainAgent { MainAgent(0, []) }

  function FreshSubAgent(): SubAgent { SubAgent(0) }

  // ------------------------------------------------------------- the sorter

  /** MainAgent's filter: inside the capture band and not yet lassoed. */
  predicate LassoEligible(d: Document) {
    CaptureTop < d.y < CaptureBottom && !d.lassoed
  }

  /** What sorting the eligible documents by ascending value (a stable sort)
      and taking the last one selects: an eligible document of maximal value,
      the last such in array order. */
  predicate IsLassoPick(docs: seq<Document>, i: int) {
    && 0 <= i < |docs|
    && LassoEligible(docs[i])
    && (forall j | 0 <= j < |docs| && LassoEligible(docs[j]) :: docs[j].value <= docs[i].value)
    && (forall j | i < j < |docs| && LassoEligible(docs[j]) :: docs[j].value < docs[i].value)
  }

  function LassoPick(docs: seq<Document>): (r: Option<nat>)
    ensures r.None? <==> forall j | 0 <= j < |docs| :: !LassoEligible(docs[j])
    ensures r.Some? ==> IsLassoPick(docs, r.value)
    decreases |docs|
  {
    if |docs| == 0 then None
    else
      var n := |docs| - 1;
      var p := LassoPick(docs[..n]);
      if !LassoEligible(docs[n]) then p
      else if p.Some? && docs[p.value].value > docs[n].value then p
      else Some(n)
  }

  /** At most one document satisfies the selection rule. */
  lemma LassoPickUnique(docs: seq<Document>, i: int, j: int)
    requires IsLassoPick(docs, i) && IsLassoPick(docs, j)
    ensures i == j
  {}

  /** Three uncaptured documents worth 50, 1200 and 500 in the band: the
      sorter takes the one worth 1200. */
  lemma CapturePicksMostValuable(d0: Document, d1: Document, d2: Document)
    requires LassoEligible(d0) && LassoEligible(d1) && LassoEligible(d2)
    requires d0.value == 50 && d1.value == 1200 && d2.value == 500
    ensures LassoPick([d0, d1, d2]) == Some(1)
  {
    var docs := [d0, d1, d2];
    assert IsLassoPick(docs, 1);
    var r := LassoPick(docs);
    assert r.Some? by {
      assert LassoEligible(docs[0]);
    }
    LassoPickUnique(docs, r.value, 1);
  }

  datatype Capture = Capture(agent: MainAgent, docs: seq<Document>)

  /** The sorter throws a lasso: more than LassoInterval ms since the last
      one, and some document eligible. */
  predicate CaptureDue(a: MainAgent, docs: seq<Document>, now: int) {
    now - a.lastLasso > LassoInterval && exists j | 0 <= j < |docs| :: LassoEligible(docs[j])
  }

  /** The capture half of MainAgent.update: when more than LassoInterval ms
      have passed and some document is eligible, lasso the selected one. */
  function CaptureStep(a: MainAgent, docs: seq<Document>, now: int): (r: Capture)
    ensures CaptureDue(a, docs, now) ==>
              exists i | IsLassoPick(docs, i) ::
                && r.docs == docs[i := docs[i].(lassoed := true)]
                && r.agent == MainAgent(now, a.lassos + [Lasso(docs[i].id, 0)])
    ensures !CaptureDue(a, docs, now) ==> r == Capture(a, docs)
  {
    if now - a.lastLasso > LassoInterval then
      match LassoPick(docs)
      case None => Capture(a, docs)
      case Some(i) =>
        Capture(MainAgent(now, a.lassos + [Lasso(docs[i].id, 0)]), docs[i := docs[i].(lassoed := true)])
    else Capture(a, docs)
  }

  /** A document already routed to the lane its value selects. */
  predicate Routed(d: Document) {
    d.lassoed && d.targetX == Some(LaneFor(d.value))
  }

  /** `after` differs from `before` at most by lasso flags and lane targets:
      a document stays lassoed, and a lane once set is the one its value selects. */
  predicate OnlyRouting(before: seq<Document>, after: seq<Document>) {
    && |after| == |before|
    && forall i | 0 <= i < |before| ::
         && SameDocument(before[i], after[i])
         && after[i].x == before[i].x && after[i].y == before[i].y && after[i].speed == before[i].speed
         && (before[i].lassoed ==> after[i].lassoed)
         && (after[i].targetX == before[i].targetX || Routed(after[i]))
         && (Routed(before[i]) ==> Routed(after[i]))
  }

  /** moveDocumentToLane applied to the document with id `id`. */
  function RouteToLane(docs: seq<Document>, id: nat): (r: seq<Document>)
    ensures OnlyRouting(docs, r)
    ensures forall i | 0 <= i < |docs| :: docs[i].id == id ==> Routed(r[i])
    ensures forall i | 0 <= i < |docs| :: docs[i].id != id ==> r[i] == docs[i]
  {
    seq(|docs|, i requires 0 <= i < |docs| =>
      if docs[i].id == id then docs[i].(targetX := Some(LaneFor(docs[i].value)), lassoed := true)
      else docs[i])
  }

  datatype LassoPass = LassoPass(lassos: seq<Lasso>, docs: seq<Document>)

  /** This update brings the lasso to LassoMax. */
  predicate Completes(l: Lasso) {
    l.progress + LassoStep >= LassoMax
  }

  /** Some lasso completing on this update targets the document `id`. */
  predicate Targeted(lassos: seq<Lasso>, id: nat) {
    exists k | 0 <= k < |lassos| :: Completes(lassos[k]) && lassos[k].targetId == id
  }

  /** The lasso half of MainAgent.update: every lasso advances by LassoStep;
      one reaching LassoMax routes its target and is filtered out. */
  function AdvanceLassos(lassos: seq<Lasso>, docs: seq<Document>): (r: LassoPass)
    ensures OnlyRouting(docs, r.docs)
    ensures |r.lassos| <= |lassos|
    ensures forall l | l in r.lassos :: l.progress < LassoMax
    ensures forall k | 0 <= k < |lassos| && !Completes(lassos[k]) ::
              Lasso(lassos[k].targetId, lassos[k].progress + LassoStep) in r.lassos
    ensures forall k, i | 0 <= k < |lassos| && 0 <= i < |docs| &&
                          Completes(lassos[k]) && docs[i].id == lassos[k].targetId ::
              Routed(r.docs[i])
    decreases |lassos|
  {
    if |lassos| == 0 then LassoPass([], docs)
    else
      var l := lassos[0];
      var progress := l.progress + LassoStep;
      var docs1 := if progress >= LassoMax then RouteToLane(docs, l.targetId) else docs;
      var rest := AdvanceLassos(lassos[1..], docs1);
      assert forall k | 1 <= k < |lassos| :: lassos[k] == lassos[1..][k - 1];
      if progress >= LassoMax then rest
      else LassoPass([Lasso(l.targetId, progress)] + rest.lassos, rest.docs)
  }

  /** The lassos one pass leaves, defined on their own: every lasso short of
      completion, advanced by LassoStep, in the original order; completing
      lassos are gone. */
  function Advanced(lassos: seq<Lasso>): seq<Lasso>
    decreases |lassos|
  {
    if |lassos| == 0 then []
    else
      var l := lassos[0];
      (if Completes(l) then [] else [Lasso(l.targetId, l.progress + LassoStep)]) + Advanced(lassos[1..])
  }

  /** The lasso pass keeps exactly the advanced survivors. */
  lemma {:induction false} AdvanceLassosAdvances(lassos: seq<Lasso>, docs: seq<Document>)
    ensures AdvanceLassos(lassos, docs).lassos == Advanced(lassos)
    decreases |lassos|
  {
    if |lassos| > 0 {
      var l := lassos[0];
      var docs1 := if Completes(l) then RouteToLane(docs, l.targetId) else docs;
      AdvanceLassosAdvances(lassos[1..], docs1);
    }
  }

  lemma {:induction false} AdvancedAppend(a: seq<Lasso>, b: seq<Lasso>)
    ensures Advanced(a + b) == Advanced(a) + Advanced(b)
    decreases |a|
  {
    if |a| == 0 {
      assert a + b == b;
    } else {
      assert (a + b)[0] == a[0] && (a + b)[1..] == a[1..] + b;
      AdvancedAppend(a[1..], b);
    }
  }

  /** A lasso just thrown survives its first advance. */
  lemma AdvancedFresh(l: Lasso)
    requires l.progress == 0
    ensures Advanced([l]) == [Lasso(l.targetId, LassoStep)]
  {
    assert [l][1..] == [];
  }

  /** The lasso pass touches only the documents a completing lasso targets. */
  lemma {:induction false} AdvanceLassosTouchesOnlyTargets(lassos: seq<Lasso>, docs: seq<Document>)
    ensures var r := AdvanceLassos(lassos, docs);
            forall i | 0 <= i < |docs| && !Targeted(lassos, docs[i].id) :: r.docs[i] == docs[i]
    decreases |lassos|
  {
    if |lassos| > 0 {
      var l := lassos[0];
      var docs1 := if Completes(l) then RouteToLane(docs, l.targetId) else docs;
      AdvanceLassosTouchesOnlyTargets(lassos[1..], docs1);
      var rest := AdvanceLassos(lassos[1..], docs1);
      assert AdvanceLassos(lassos, docs).docs == rest.docs;
      forall i | 0 <= i < |docs| && !Targeted(lassos, docs[i].id)
        ensures rest.docs[i] == docs[i]
      {
        assert docs1[i] == docs[i] by {
          if Completes(l) {
            assert lassos[0].targetId != docs[i].id;
          }
        }
        forall k | 0 <= k < |lassos[1..]| && Completes(lassos[1..][k])
          ensures lassos[1..][k].targetId != docs1[i].id
        {
          assert lassos[1..][k] == lassos[k + 1];
        }
      }
    }
  }

  /** What one update of the sorter does, stated without its algorithm:
      documents keep identity and position and stay lassoed once lassoed;
      when a capture is due the selected document ends lassoed with a new
      lasso (already advanced once) toward it, and the throw is timed now;
      every lasso short of completion advances by LassoStep; every
      completing lasso routes its target; and every other document is
      untouched. */
  predicate SorterSpec(a: MainAgent, docs: seq<Document>, now: int, r: Capture) {
    && SorterKeepsDocuments(docs, r)
    && SorterCaptures(a, docs, now, r)
    && SorterAdvances(a, docs, r)
    && SorterLeavesOthers(a, docs, now, r)
  }

  predicate SorterKeepsDocuments(docs: seq<Document>, r: Capture) {
    && OnlyRouting(docs, r.docs)
    && (forall l | l in r.agent.lassos :: l.progress < LassoMax)
  }

  /** The throw, and the whole lasso list: the advanced old lassos, then
      the new one when a capture was due. */
  predicate SorterCaptures(a: MainAgent, docs: seq<Document>, now: int, r: Capture) {
    && (CaptureDue(a, docs, now) ==>
          && r.agent.lastLasso == now
          && exists i | 0 <= i < |docs| && IsLassoPick(docs, i) ::
               && i < |r.docs| && r.docs[i].lassoed
               && r.agent.lassos == Advanced(a.lassos) + [Lasso(docs[i].id, LassoStep)])
    && (!CaptureDue(a, docs, now) ==>
          r.agent.lastLasso == a.lastLasso && r.agent.lassos == Advanced(a.lassos))
  }

  predicate SorterAdvances(a: MainAgent, docs: seq<Document>, r: Capture) {
    && (forall k | 0 <= k < |a.lassos| && !Completes(a.lassos[k]) ::
          Lasso(a.lassos[k].targetId, a.lassos[k].progress + LassoStep) in r.agent.lassos)
    && (forall k, i | 0 <= k < |a.lassos| && 0 <= i < |docs| && i < |r.docs| &&
                      Completes(a.lassos[k]) && docs[i].id == a.lassos[k].targetId ::
          Routed(r.docs[i]))
  }

  /** A document no completing lasso targets changes only by being picked,
      and then only in its lassoed flag. */
  predicate SorterLeavesOthers(a: MainAgent, docs: seq<Document>, now: int, r: Capture) {
    && (forall i | 0 <= i < |docs| && i < |r.docs| && !Targeted(a.lassos, docs[i].id) &&
                   !(CaptureDue(a, docs, now) && IsLassoPick(docs, i)) ::
          r.docs[i] == docs[i])
    && (forall i | 0 <= i < |docs| && i < |r.docs| && !Targeted(a.lassos, docs[i].id) &&
                   CaptureDue(a, docs, now) && IsLassoPick(docs, i) ::
          r.docs[i] == docs[i].(lassoed := true))
  }

  /** MainAgent.update: capture (maybe), then advance every lasso. */
  function MainAgentStep(a: MainAgent, docs: seq<Document>, now: int): (r: Capture)
    ensures SorterSpec(a, docs, now, r)
  {
    var c := CaptureStep(a, docs, now);
    var p := AdvanceLassos(c.agent.lassos, c.docs);
    var r := Capture(c.agent.(lassos := p.lassos), p.docs);
    assert SorterSpec(a, docs, now, r) by {
      SorterKeepsDocumentsHolds(a, docs, now, c, p);
      SorterCapturesHolds(a, docs, now, c, p);
      SorterAdvancesHolds(a, docs, now, c, p);
      SorterLeavesOthersHolds(a, docs, now, c, p);
    }
    r
  }

  /** What the capture half leaves for the lasso half. */
  lemma CaptureShape(a: MainAgent, docs: seq<Document>, now: int, c: Capture)
    requires c == CaptureStep(a, docs, now)
    ensures |c.docs| == |docs| && OnlyRouting(docs, c.docs)
    ensures |c.agent.lassos| >= |a.lassos| && forall k | 0 <= k < |a.lassos| :: c.agent.lassos[k] == a.lassos[k]
    ensures forall k | |a.lassos| <= k < |c.agent.lassos| :: !Completes(c.agent.lassos[k])
    ensures forall i | 0 <= i < |docs| && !(CaptureDue(a, docs, now) && IsLassoPick(docs, i)) :: c.docs[i] == docs[i]
    ensures forall i | 0 <= i < |docs| && CaptureDue(a, docs, now) && IsLassoPick(docs, i) ::
              c.docs[i] == docs[i].(lassoed := true)
  {
    if CaptureDue(a, docs, now) {
      var i :| IsLassoPick(docs, i) && c.docs == docs[i := docs[i].(lassoed := true)]
               && c.agent == MainAgent(now, a.lassos + [Lasso(docs[i].id, 0)]);
      forall j | 0 <= j < |docs| && !(CaptureDue(a, docs, now) && IsLassoPick(docs, j))
        ensures c.docs[j] == docs[j]
      {
        assert j != i;
      }
      forall j | 0 <= j < |docs| && IsLassoPick(docs, j)
        ensures c.docs[j] == docs[j].(lassoed := true)
      {
        LassoPickUnique(docs, i, j);
      }
    }
  }

  lemma SorterKeepsDocumentsHolds(a: MainAgent, docs: seq<Document>, now: int, c: Capture, p: LassoPass)
    requires c == CaptureStep(a, docs, now) && p == AdvanceLassos(c.agent.lassos, c.docs)
    ensures SorterKeepsDocuments(docs, Capture(c.agent.(lassos := p.lassos), p.docs))
  {
    CaptureShape(a, docs, now, c);
    assert OnlyRouting(c.docs, p.docs);
    forall i | 0 <= i < |docs|
      ensures p.docs[i].targetX == docs[i].targetX || Routed(p.docs[i])
    {
      assert c.docs[i].targetX == docs[i].targetX || Routed(c.docs[i]);
    }
  }

  lemma SorterCapturesHolds(a: MainAgent, docs: seq<Document>, now: int, c: Capture, p: LassoPass)
    requires c == CaptureStep(a, docs, now) && p == AdvanceLassos(c.agent.lassos, c.docs)
    ensures SorterCaptures(a, docs, now, Capture(c.agent.(lassos := p.lassos), p.docs))
  {
    if CaptureDue(a, docs, now) {
      var i :| IsLassoPick(docs, i) && c.docs == docs[i := docs[i].(lassoed := true)]
               && c.agent == MainAgent(now, a.lassos + [Lasso(docs[i].id, 0)]);
      var l := Lasso(docs[i].id, 0);
      AdvanceLassosAdvances(c.agent.lassos, c.docs);
      AdvancedAppend(a.lassos, [l]);
      AdvancedFresh(l);
      assert p.lassos == Advanced(a.lassos) + [Lasso(docs[i].id, LassoStep)];
      assert p.docs[i].lassoed by {
        assert OnlyRouting(c.docs, p.docs);
        assert c.docs[i].lassoed;
      }
    } else {
      AdvanceLassosAdvances(c.agent.lassos, c.docs);
    }
  }

  /** The two facts of AdvanceLassos that SorterAdvancesHolds consumes. */
  lemma AdvanceLassosFacts(ls: seq<Lasso>, docs: seq<Document>)
    ensures var p := AdvanceLassos(ls, docs);
            && |p.docs| == |docs|
            && (forall k | 0 <= k < |ls| && !Completes(ls[k]) ::
                  Lasso(ls[k].targetId, ls[k].progress + LassoStep) in p.lassos)
            && (forall k, i | 0 <= k < |ls| && 0 <= i < |docs| && Completes(ls[k]) && docs[i].id == ls[k].targetId ::
                  Routed(p.docs[i]))
  {
  }

  lemma SorterAdvancesHolds(a: MainAgent, docs: seq<Document>, now: int, c: Capture, p: LassoPass)
    requires c == CaptureStep(a, docs, now) && p == AdvanceLassos(c.agent.lassos, c.docs)
    ensures SorterAdvances(a, docs, Capture(c.agent.(lassos := p.lassos), p.docs))
  {
    SorterKeepsSurvivors(a, docs, now, c, p);
    SorterRoutesTargets(a, docs, now, c, p);
  }

  lemma SorterKeepsSurvivors(a: MainAgent, docs: seq<Document>, now: int, c: Capture, p: LassoPass)
    requires c == CaptureStep(a, docs, now) && p == AdvanceLassos(c.agent.lassos, c.docs)
    ensures forall k | 0 <= k < |a.lassos| && !Completes(a.lassos[k]) ::
              Lasso(a.lassos[k].targetId, a.lassos[k].progress + LassoStep) in p.lassos
  {
    CapturePrefix(a, docs, now);
    AdvanceLassosFacts(c.agent.lassos, c.docs);
    AdvanceKeepsSurvivors(a, c.agent.lassos, c.docs, p);
  }

  /** A capture only appends to the lasso list. */
  lemma CapturePrefix(a: MainAgent, docs: seq<Document>, now: int)
    ensures var ls := CaptureStep(a, docs, now).agent.lassos;
            |ls| >= |a.lassos| && forall k | 0 <= k < |a.lassos| :: ls[k] == a.lassos[k]
  {
  }

  lemma SorterRoutesTargets(a: MainAgent, docs: seq<Document>, now: int, c: Capture, p: LassoPass)
    requires c == CaptureStep(a, docs, now) && p == AdvanceLassos(c.agent.lassos, c.docs)
    ensures forall k, i | 0 <= k < |a.lassos| && 0 <= i < |docs| && i < |p.docs| &&
                          Completes(a.lassos[k]) && docs[i].id == a.lassos[k].targetId ::
              Routed(p.docs[i])
  {
    CaptureShape(a, docs, now, c);
    AdvanceLassosFacts(c.agent.lassos, c.docs);
    AdvanceRoutesTargets(a, c.agent.lassos, docs, c.docs, p);
  }

  lemma AdvanceRoutesTargets(a: MainAgent, ls: seq<Lasso>, docs: seq<Document>, docs1: seq<Document>, p: LassoPass)
    requires |p.docs| == |docs1|
    requires forall k, i | 0 <= k < |ls| && 0 <= i < |docs1| && Completes(ls[k]) && docs1[i].id == ls[k].targetId ::
               Routed(p.docs[i])
    requires |docs1| == |docs| && forall i | 0 <= i < |docs| :: docs1[i].id == docs[i].id
    requires |ls| >= |a.lassos| && forall k | 0 <= k < |a.lassos| :: ls[k] == a.lassos[k]
    ensures forall k, i | 0 <= k < |a.lassos| && 0 <= i < |docs| && i < |p.docs| &&
                          Completes(a.lassos[k]) && docs[i].id == a.lassos[k].targetId ::
              Routed(p.docs[i])
  {
    forall k, i | 0 <= k < |a.lassos| && 0 <= i < |docs| && i < |p.docs| &&
                  Completes(a.lassos[k]) && docs[i].id == a.lassos[k].targetId
      ensures Routed(p.docs[i])
    {
      assert ls[k] == a.lassos[k];
      assert docs1[i].id == ls[k].targetId;
    }
  }

  lemma AdvanceKeepsSurvivors(a: MainAgent, ls: seq<Lasso>, docs: seq<Document>, p: LassoPass)
    requires forall k | 0 <= k < |ls| && !Completes(ls[k]) ::
               Lasso(ls[k].targetId, ls[k].progress + LassoStep) in p.lassos
    requires |ls| >= |a.lassos| && forall k | 0 <= k < |a.lassos| :: ls[k] == a.lassos[k]
    ensures forall k | 0 <= k < |a.lassos| && !Completes(a.lassos[k]) ::
              Lasso(a.lassos[k].targetId, a.lassos[k].progress + LassoStep) in p.lassos
  {
    forall k | 0 <= k < |a.lassos| && !Completes(a.lassos[k])
      ensures Lasso(a.lassos[k].targetId, a.lassos[k].progress + LassoStep) in p.lassos
    {
      assert ls[k] == a.lassos[k];
    }
  }

  lemma SorterLeavesOthersHolds(a: MainAgent, docs: seq<Document>, now: int, c: Capture, p: LassoPass)
    requires c == CaptureStep(a, docs, now) && p == AdvanceLassos(c.agent.lassos, c.docs)
    ensures SorterLeavesOthers(a, docs, now, Capture(c.agent.(lassos := p.lassos), p.docs))
  {
    CaptureShape(a, docs, now, c);
    AdvanceLassosTouchesOnlyTargets(c.agent.lassos, c.docs);
    forall i | 0 <= i < |docs| && !Targeted(a.lassos, docs[i].id)
      ensures !Targeted(c.agent.lassos, c.docs[i].id)
    {
      assert c.docs[i].id == docs[i].id;
    }
  }

  /** Every lasso's target lies below `bound`. */
  predicate TargetsBelow(lassos: seq<Lasso>, bound: int) {
    forall l | l in lassos :: l.targetId < bound
  }

  /** The lasso pass only drops or advances lassos, never retargets one. */
  lemma {:induction false} AdvanceLassosTargetsBelow(lassos: seq<Lasso>, docs: seq<Document>, bound: int)
    requires TargetsBelow(lassos, bound)
    ensures TargetsBelow(AdvanceLassos(lassos, docs).lassos, bound)
    decreases |lassos|
  {
    if |lassos| > 0 {
      var l := lassos[0];
      var docs1 := if Completes(l) then RouteToLane(docs, l.targetId) else docs;
      assert lassos[0] in lassos;
      assert forall m | m in lassos[1..] :: m in lassos;
      AdvanceLassosTargetsBelow(lassos[1..], docs1, bound);
    }
  }

  /** The sorter throws lassos only at documents it is given, so a bound on
      their ids bounds every lasso target. */
  lemma MainAgentStepTargetsBelow(a: MainAgent, docs: seq<Document>, now: int, bound: int)
    requires TargetsBelow(a.lassos, bound) && IdsIn(docs, 0, bound)
    ensures TargetsBelow(MainAgentStep(a, docs, now).agent.lassos, bound)
  {
    var c := CaptureStep(a, docs, now);
    assert TargetsBelow(c.agent.lassos, bound) by {
      if CaptureDue(a, docs, now) {
        var i :| IsLassoPick(docs, i) && c.agent == MainAgent(now, a.lassos + [Lasso(docs[i].id, 0)]);
        assert docs[i] in docs;
      }
    }
    AdvanceLassosTargetsBelow(c.agent.lassos, c.docs, bound);
  }

  /** The lasso pass repeated `k` times. */
  function AdvanceLassosN(lassos: seq<Lasso>, docs: seq<Document>, k: nat): LassoPass
    decreases k
  {
    if k == 0 then LassoPass(lassos, docs)
    else
      var q := AdvanceLassosN(lassos, docs, k - 1);
      AdvanceLassos(q.lassos, q.docs)
  }

  /** One lasso pass on a single lasso. */
  lemma AdvanceOne(id: nat, progress: int, docs: seq<Document>)
    ensures AdvanceLassos([Lasso(id, progress)], docs) ==
              if progress + LassoStep >= LassoMax then LassoPass([], RouteToLane(docs, id))
              else LassoPass([Lasso(id, progress + LassoStep)], docs)
  {
    assert [Lasso(id, progress)][1..] == [];
  }

  /** A new lasso is active for 24 updates, and its 25th update completes it:
      the lasso is gone and its target is routed to the lane of its value. */
  lemma {:induction false} LassoLifetime(id: nat, docs: seq<Document>, k: nat)
    requires k <= 25
    ensures var p := AdvanceLassosN([Lasso(id, 0)], docs, k);
            && (k < 25 ==> p == LassoPass([Lasso(id, LassoStep * k)], docs))
            && (k == 25 ==> p.lassos == [] && |p.docs| == |docs| && forall i | 0 <= i < |docs| && docs[i].id == id :: Routed(p.docs[i]))
    decreases k
  {
    if k > 0 {
      LassoLifetime(id, docs, k - 1);
      LifetimeStep(id, docs, k);
    }
  }

  lemma LifetimeStep(id: nat, docs: seq<Document>, k: nat)
    requires 0 < k <= 25 && AdvanceLassosN([Lasso(id, 0)], docs, k - 1) == LassoPass([Lasso(id, LassoStep * (k - 1))], docs)
    ensures var p := AdvanceLassosN([Lasso(id, 0)], docs, k);
            && (k < 25 ==> p == LassoPass([Lasso(id, LassoStep * k)], docs))
            && (k == 25 ==> p.lassos == [] && |p.docs| == |docs| && forall i | 0 <= i < |docs| && docs[i].id == id :: Routed(p.docs[i]))
  {
    assert AdvanceLassosN([Lasso(id, 0)], docs, k) == AdvanceLassos([Lasso(id, LassoStep * (k - 1))], docs);
    if k < 25 {
      AdvanceOne(id, LassoStep * (k - 1), docs);
    } else {
      LastAdvance(id, docs);
    }
  }

  /** The 25th advance: progress 96 reaches LassoMax. */
  lemma LastAdvance(id: nat, docs: seq<Document>)
    ensures var p := AdvanceLassos([Lasso(id, LassoStep * 24)], docs);
            p.lassos == [] && |p.docs| == |docs| && forall i | 0 <= i < |docs| && docs[i].id == id :: Routed(p.docs[i])
  {
    AdvanceOne(id, LassoStep * 24, docs);
  }

  // ------------------------------------------------------------- the sniper

  /** Target priority of the game.js sniper: low, medium, high, no-value. */
  function Rank(c: Category): nat {
    match c
    case Low => 0
    case Medium => 1
    case High => 2
    case NoValue => 3
  }

  /** SubAgent's filter in each variant. */
  predicate SniperEligible(cfg: Config, d: Document) {
    && !d.lassoed
    && 0.0 < d.y < cfg.sniperMaxY
    && match cfg.sniperPolicy
       case PriorityInLeftZone => d.x < SniperZoneRight
       case LowValueOnly => d.cat == Low
  }

  /** What a stable sort by rank followed by taking the first selects: an
      eligible document of minimal rank, the first such in array order. */
  predicate IsSniperPick(cfg: Config, docs: seq<Document>, i: int) {
    && 0 <= i < |docs|
    && SniperEligible(cfg, docs[i])
    && (forall j | 0 <= j < |docs| && SniperEligible(cfg, docs[j]) :: Rank(docs[i].cat) <= Rank(docs[j].cat))
    && (forall j | 0 <= j < i && SniperEligible(cfg, docs[j]) :: Rank(docs[i].cat) < Rank(docs[j].cat))
  }

  function SniperPick(cfg: Config, docs: seq<Document>): (r: Option<nat>)
    ensures r.None? <==> forall j | 0 <= j < |docs| :: !SniperEligible(cfg, docs[j])
    ensures r.Some? ==> IsSniperPick(cfg, docs, r.value)
    decreases |docs|
  {
    if |docs| == 0 then None
    else
      var n := |docs| - 1;
      var p := SniperPick(cfg, docs[..n]);
      if !SniperEligible(cfg, docs[n]) then p
      else if p.Some? && Rank(docs[p.value].cat) <= Rank(docs[n].cat) then p
      else Some(n)
  }

  lemma SniperPickUnique(cfg: Config, docs: seq<Document>, i: int, j: int)
    requires IsSniperPick(cfg, docs, i) && IsSniperPick(cfg, docs, j)
    ensures i == j
  {}

  /** With game.js's constants, medium, low and high documents all in the
      left zone: the sniper aims at the low one. */
  lemma SniperPrefersLow(d0: Document, d1: Document, d2: Document)
    requires SniperEligible(GameJs(), d0) && SniperEligible(GameJs(), d1) && SniperEligible(GameJs(), d2)
    requires d0.cat == Medium && d1.cat == Low && d2.cat == High
    ensures SniperPick(GameJs(), [d0, d1, d2]) == Some(1)
  {
    var docs := [d0, d1, d2];
    assert IsSniperPick(GameJs(), docs, 1);
    var r := SniperPick(GameJs(), docs);
    assert r.Some? by {
      assert SniperEligible(GameJs(), docs[0]);
    }
    SniperPickUnique(GameJs(), docs, r.value, 1);
  }

  /** In public/game.js the sniper takes the first eligible document, which
      is always a 'low' one. */
  lemma LowOnlyPicksFirstLow(cfg: Config, docs: seq<Document>)
    requires cfg.sniperPolicy == LowValueOnly
    ensures var r := SniperPick(cfg, docs);
            r.Some? ==> docs[r.value].cat == Low &&
                        forall j | 0 <= j < r.value :: !SniperEligible(cfg, docs[j])
  {}

  datatype Shot = Shot(agent: SubAgent, bullets: seq<Bullet>)

  /** The sniper fires: its interval has strictly passed and some document
      is eligible. */
  predicate SniperDue(cfg: Config, s: SubAgent, docs: seq<Document>, now: int) {
    now - s.lastShot > cfg.sniperInterval && exists j | 0 <= j < |docs| :: SniperEligible(cfg, docs[j])
  }

  /** The sniper's bullet: from the muzzle, with the aimed velocity. */
  function SniperBullet(vx: real, vy: real): Bullet {
    Bullet(SniperMuzzleX - BulletWidth / 2.0, SniperMuzzleY, vx, vy)
  }

  /** SubAgent.update: after a strict cooldown, fire one aimed bullet from
      the muzzle at the selected document. The aimed velocity (vx, vy) is
      supplied by the caller. */
  function SubAgentStep(cfg: Config, s: SubAgent, docs: seq<Document>, bullets: seq<Bullet>,
                        now: int, vx: real, vy: real): (r: Shot)
    ensures SniperDue(cfg, s, docs, now) ==> r == Shot(SubAgent(now), bullets + [SniperBullet(vx, vy)])
    ensures !SniperDue(cfg, s, docs, now) ==> r == Shot(s, bullets)
  {
    if now - s.lastShot > cfg.sniperInterval && SniperPick(cfg, docs).Some? then
      Shot(SubAgent(now), bullets + [SniperBullet(vx, vy)])
    else Shot(s, bullets)
  }
}

=== FILE: collision.dfy ===
/** The collision pass (checkCollisions / isColliding): every bullet, from
    the last to the first, is checked against the documents from the last to
    the first; the first overlap found removes both and ends that bullet's
    search. */
module Collision {
  import opened GameConfig
  import opened Entities

  /** isColliding: strict axis-aligned bounding-box overlap. */
  predicate Overlaps(b: Bullet, d: Document) {
    && b.x < d.x + DocWidth
    && b.x + BulletWidth > d.x
    && b.y < d.y + DocHeight
    && b.y + BulletHeight > d.y
  }

  /** The inner loop: the highest index whose document `b` overlaps. */
  function LastHit(b: Bullet, docs: seq<Document>): (r: Option<nat>)
    ensures r.Some? ==> r.value < |docs| && Overlaps(b, docs[r.value])
    ensures r.Some? ==> forall k | r.value < k < |docs| :: !Overlaps(b, docs[k])
    ensures r.None? <==> forall k | 0 <= k < |docs| :: !Overlaps(b, docs[k])
    decreases |docs|
  {
    if |docs| == 0 then None
    else if Overlaps(b, docs[|docs| - 1]) then Some(|docs| - 1)
    else LastHit(b, docs[..|docs| - 1])
  }

  /** A resolved pair: the bullet and its index in the bullet list, the
      document it removed, and that document's index in the list at the
      moment it was removed. */
  datatype Hit = Hit(bullet: Bullet, doc: Document, index: nat, bulletIndex: nat)

  datatype Outcome = Outcome(bullets: seq<Bullet>, docs: seq<Document>, hits: seq<Hit>)

  function HitDocs(hits: seq<Hit>): (r: seq<Document>)
    ensures |r| == |hits|
    ensures forall i | 0 <= i < |hits| :: r[i] == hits[i].doc
  {
    seq(|hits|, i requires 0 <= i < |hits| => hits[i].doc)
  }

  function HitBullets(hits: seq<Hit>): (r: seq<Bullet>)
    ensures |r| == |hits|
    ensures forall i | 0 <= i < |hits| :: r[i] == hits[i].bullet
  {
    seq(|hits|, i requires 0 <= i < |hits| => hits[i].bullet)
  }

  /** Total value of a list of documents. */
  function TotalValue(docs: seq<Document>): int
    decreases |docs|
  {
    if |docs| == 0 then 0 else docs[0].value + TotalValue(docs[1..])
  }

  /** Value credited by a list of hits (added to both score and revenue). */
  function HitValue(hits: seq<Hit>): int {
    TotalValue(HitDocs(hits))
  }

  /** The sequence with index j removed (Array.prototype.splice(j, 1)). */
  function Remove<T>(s: seq<T>, j: nat): (r: seq<T>)
    requires j < |s|
    ensures |r| == |s| - 1
    ensures multiset(r) + multiset{s[j]} == multiset(s)
    ensures forall x | x in r :: x in s
  {
    assert s == s[..j] + [s[j]] + s[j + 1..];
    s[..j] + s[j + 1..]
  }

  /** checkCollisions over the bullets, processed from the last one back.
      Bullets that hit nothing survive in their original order. */
  function Resolve(bullets: seq<Bullet>, docs: seq<Document>): (r: Outcome)
    ensures |r.bullets| + |r.hits| == |bullets|
    ensures |r.docs| + |r.hits| == |docs|
    ensures forall h | h in r.hits :: Overlaps(h.bullet, h.doc)
    ensures forall d | d in r.docs :: d in docs
    ensures forall h | h in r.hits :: h.doc in docs
    decreases |bullets|
  {
    if |bullets| == 0 then Outcome([], docs, [])
    else
      var n := |bullets| - 1;
      var b := bullets[n];
      match LastHit(b, docs)
      case None =>
        var rest := Resolve(bullets[..n], docs);
        Outcome(rest.bullets + [b], rest.docs, rest.hits)
      case Some(j) =>
        var rest := Resolve(bullets[..n], Remove(docs, j));
        Outcome(rest.bullets, rest.docs, [Hit(b, docs[j], j, n)] + rest.hits)
  }

  /** Every bullet is either still flying or the bullet of exactly one hit,
      and every document is either still falling or the document of exactly
      one hit: a bullet removes at most one document. */
  lemma {:induction false} ResolvePartitions(bullets: seq<Bullet>, docs: seq<Document>)
    ensures var r := Resolve(bullets, docs);
            && multiset(r.bullets) + multiset(HitBullets(r.hits)) == multiset(bullets)
            && multiset(r.docs) + multiset(HitDocs(r.hits)) == multiset(docs)
    decreases |bullets|
  {
    if |bullets| == 0 {
      assert HitBullets([]) == [] && HitDocs([]) == [];
    } else {
      var n := |bullets| - 1;
      var b := bullets[n];
      var front := bullets[..n];
      assert bullets == front + [b];
      assert multiset(bullets) == multiset(front) + multiset{b};
      match LastHit(b, docs)
      case None =>
        var rest := Resolve(front, docs);
        assert Resolve(bullets, docs) == Outcome(rest.bullets + [b], rest.docs, rest.hits);
        ResolvePartitions(front, docs);
        assert multiset(rest.bullets + [b]) == multiset(rest.bullets) + multiset{b};
      case Some(j) =>
        var left := Remove(docs, j);
        var rest := Resolve(front, left);
        var hits := [Hit(b, docs[j], j, n)] + rest.hits;
        assert Resolve(bullets, docs) == Outcome(rest.bullets, rest.docs, hits);
        ResolvePartitions(front, left);
        HitsCons(Hit(b, docs[j], j, n), rest.hits);
    }
  }

  lemma HitsCons(h: Hit, hits: seq<Hit>)
    ensures multiset(HitBullets([h] + hits)) == multiset{h.bullet} + multiset(HitBullets(hits))
    ensures multiset(HitDocs([h] + hits)) == multiset{h.doc} + multiset(HitDocs(hits))
  {
    assert HitBullets([h] + hits) == [h.bullet] + HitBullets(hits);
    assert HitDocs([h] + hits) == [h.doc] + HitDocs(hits);
  }

  /** The documents left after removing, in order, the index each hit
      records (an index out of range removes nothing). */
  function Replay(docs: seq<Document>, hits: seq<Hit>): seq<Document>
    decreases |hits|
  {
    if |hits| == 0 then docs
    else Replay(if hits[0].index < |docs| then Remove(docs, hits[0].index) else docs, hits[1..])
  }

  /** Each hit's document is the highest-index document its bullet overlaps
      among the documents still present when that bullet is checked. */
  predicate FollowsLastHit(docs: seq<Document>, hits: seq<Hit>) {
    forall t | 0 <= t < |hits| :: HitFollows(docs, hits, t)
  }

  predicate HitFollows(docs: seq<Document>, hits: seq<Hit>, t: nat)
    requires t < |hits|
  {
    var present := Replay(docs, hits[..t]);
    && LastHit(hits[t].bullet, present) == Some(hits[t].index)
    && hits[t].index < |present|
    && present[hits[t].index] == hits[t].doc
  }

  /** The hits are the trace of the nested loops: they follow LastHit, and
      replaying them from the original list leaves exactly the surviving
      documents. */
  lemma ResolveFollowsLastHit(bullets: seq<Bullet>, docs: seq<Document>)
    ensures var r := Resolve(bullets, docs);
            Replay(docs, r.hits) == r.docs && FollowsLastHit(docs, r.hits)
  {
    ResolveIsTrace(bullets, docs);
  }

  lemma TraceCons(docs: seq<Document>, h: Hit, tail: seq<Hit>)
    requires h.index < |docs| && LastHit(h.bullet, docs) == Some(h.index) && docs[h.index] == h.doc
    requires FollowsLastHit(Remove(docs, h.index), tail)
    ensures Replay(docs, [h] + tail) == Replay(Remove(docs, h.index), tail)
    ensures FollowsLastHit(docs, [h] + tail)
  {
    var hits := [h] + tail;
    assert hits[1..] == tail;
    forall t | 0 <= t < |hits|
      ensures HitFollows(docs, hits, t)
    {
      if t == 0 {
        assert hits[..0] == [];
      } else {
        assert HitFollows(Remove(docs, h.index), tail, t - 1);
        assert hits[t] == tail[t - 1];
        assert hits[..t][1..] == tail[..t - 1];
        assert Replay(docs, hits[..t]) == Replay(Remove(docs, h.index), tail[..t - 1]);
      }
    }
  }

  /** The pass leaves no work undone: no surviving bullet overlaps a
      surviving document. */
  lemma {:induction false} ResolveComplete(bullets: seq<Bullet>, docs: seq<Document>)
    ensures var r := Resolve(bullets, docs);
            forall b, d | b in r.bullets && d in r.docs :: !Overlaps(b, d)
    decreases |bullets|
  {
    if |bullets| > 0 {
      var n := |bullets| - 1;
      var b := bullets[n];
      var front := bullets[..n];
      match LastHit(b, docs)
      case None =>
        var rest := Resolve(front, docs);
        assert Resolve(bullets, docs) == Outcome(rest.bullets + [b], rest.docs, rest.hits);
        ResolveComplete(front, docs);
        forall b1, d | b1 in rest.bullets + [b] && d in rest.docs
          ensures !Overlaps(b1, d)
        {
          if b1 !in rest.bullets {
            assert d in docs;
            var k :| 0 <= k < |docs| && docs[k] == d;
          }
        }
      case Some(j) =>
        var rest := Resolve(front, Remove(docs, j));
        assert Resolve(bullets, docs) == Outcome(rest.bullets, rest.docs, [Hit(b, docs[j], j, n)] + rest.hits);
        ResolveComplete(front, Remove(docs, j));
    }
  }

  // ------------------------------------------------------ the loop's trace

  /** The indices of the bullets that hit something. */
  function Shots(hits: seq<Hit>): set<nat> {
    set h | h in hits :: h.bulletIndex
  }

  /** The bullets whose index is not in `used`, in their original order. */
  function Unhit(bullets: seq<Bullet>, used: set<nat>): seq<Bullet>
    decreases |bullets|
  {
    if |bullets| == 0 then []
    else
      var n := |bullets| - 1;
      Unhit(bullets[..n], used) + (if n in used then [] else [bullets[n]])
  }

  /** How many of the leading hits come from bullets above index i: the
      hits already made when the outer loop reaches bullet i. */
  function HitsAbove(hits: seq<Hit>, i: int): (k: nat)
    ensures k <= |hits|
    decreases |hits|
  {
    if |hits| == 0 || hits[0].bulletIndex <= i then 0 else 1 + HitsAbove(hits[1..], i)
  }

  /** The hits name their bullets by index, from the highest index down:
      the outer loop's order. */
  predicate InLoopOrder(bullets: seq<Bullet>, hits: seq<Hit>) {
    && (forall t | 0 <= t < |hits| :: hits[t].bulletIndex < |bullets| && bullets[hits[t].bulletIndex] == hits[t].bullet)
    && (forall s, t | 0 <= s < t < |hits| :: hits[s].bulletIndex > hits[t].bulletIndex)
  }

  /** A bullet that hit nothing overlapped none of the documents still
      present when the outer loop reached it. */
  predicate MissedAtTurn(bullets: seq<Bullet>, docs: seq<Document>, hits: seq<Hit>) {
    forall i | 0 <= i < |bullets| && i !in Shots(hits) ::
      LastHit(bullets[i], Replay(docs, hits[..HitsAbove(hits, i)])).None?
  }

  /** `hits` is a possible run of the two nested loops of checkCollisions. */
  predicate IsTrace(bullets: seq<Bullet>, docs: seq<Document>, hits: seq<Hit>) {
    InLoopOrder(bullets, hits) && FollowsLastHit(docs, hits) && MissedAtTurn(bullets, docs, hits)
  }

  /** The pass is such a run, and the surviving bullets are exactly those
      that hit nothing, in their original order. */
  lemma {:induction false} ResolveIsTrace(bullets: seq<Bullet>, docs: seq<Document>)
    ensures var r := Resolve(bullets, docs);
            && IsTrace(bullets, docs, r.hits)
            && r.bullets == Unhit(bullets, Shots(r.hits))
            && r.docs == Replay(docs, r.hits)
    decreases |bullets|
  {
    if |bullets| > 0 {
      var n := |bullets| - 1;
      var b := bullets[n];
      var front := bullets[..n];
      match LastHit(b, docs)
      case None =>
        var rest := Resolve(front, docs);
        assert Resolve(bullets, docs) == Outcome(rest.bullets + [b], rest.docs, rest.hits);
        ResolveIsTrace(front, docs);
        TraceMiss(bullets, docs, rest);
      case Some(j) =>
        var left := Remove(docs, j);
        var rest := Resolve(front, left);
        var h := Hit(b, docs[j], j, n);
        assert Resolve(bullets, docs) == Outcome(rest.bullets, rest.docs, [h] + rest.hits);
        ResolveIsTrace(front, left);
        TraceHit(bullets, docs, h, rest);
    }
  }

  /** The step of ResolveIsTrace where the last bullet hits nothing. */
  lemma TraceMiss(bullets: seq<Bullet>, docs: seq<Document>, rest: Outcome)
    requires |bullets| > 0 && LastHit(bullets[|bullets| - 1], docs).None?
    requires var front := bullets[..|bullets| - 1];
             && IsTrace(front, docs, rest.hits)
             && rest.bullets == Unhit(front, Shots(rest.hits))
    ensures IsTrace(bullets, docs, rest.hits)
    ensures rest.bullets + [bullets[|bullets| - 1]] == Unhit(bullets, Shots(rest.hits))
  {
    var n := |bullets| - 1;
    ShotsBelow(bullets[..n], rest.hits);
    OrderNone(bullets, rest.hits);
    MissedNone(bullets, docs, rest.hits);
  }

  /** The step of ResolveIsTrace where the last bullet makes hit h. */
  lemma TraceHit(bullets: seq<Bullet>, docs: seq<Document>, h: Hit, rest: Outcome)
    requires |bullets| > 0 && h.bulletIndex == |bullets| - 1 && h.bullet == bullets[|bullets| - 1]
    requires h.index < |docs| && LastHit(h.bullet, docs) == Some(h.index) && docs[h.index] == h.doc
    requires var front := bullets[..|bullets| - 1];
             && IsTrace(front, Remove(docs, h.index), rest.hits)
             && rest.bullets == Unhit(front, Shots(rest.hits))
             && rest.docs == Replay(Remove(docs, h.index), rest.hits)
    ensures IsTrace(bullets, docs, [h] + rest.hits)
    ensures rest.bullets == Unhit(bullets, Shots([h] + rest.hits))
    ensures rest.docs == Replay(docs, [h] + rest.hits)
  {
    var n := |bullets| - 1;
    var front := bullets[..n];
    TraceCons(docs, h, rest.hits);
    OrderCons(bullets, h, rest.hits);
    ShotsBelow(front, rest.hits);
    MissedCons(bullets, docs, h, rest.hits);
    ShotsCons(h, rest.hits);
    assert Unhit(bullets, Shots([h] + rest.hits)) == Unhit(front, Shots([h] + rest.hits));
    UnhitSame(front, Shots([h] + rest.hits), Shots(rest.hits));
  }

  /** There is only one such run: any trace of the loops is the pass's. */
  lemma {:induction false} TraceIsUnique(bullets: seq<Bullet>, docs: seq<Document>, hits: seq<Hit>)
    requires IsTrace(bullets, docs, hits)
    ensures hits == Resolve(bullets, docs).hits
    decreases |bullets|
  {
    if |bullets| == 0 {
      HeadShot(bullets, hits);
    } else {
      var n := |bullets| - 1;
      var b := bullets[n];
      var front := bullets[..n];
      assert HitsAbove(hits, n) == 0;
      assert hits[..0] == [];
      match LastHit(b, docs)
      case None =>
        assert |hits| > 0 ==> HitFollows(docs, hits, 0);
        assert Replay(docs, []) == docs;
        NotShot(bullets, hits);
        OrderNone(bullets, hits);
        MissedNone(bullets, docs, hits);
        TraceIsUnique(front, docs, hits);
        var rest := Resolve(front, docs);
        assert Resolve(bullets, docs) == Outcome(rest.bullets + [b], rest.docs, rest.hits);
      case Some(j) =>
        assert n in Shots(hits);
        FirstShot(bullets, hits);
        var h := hits[0];
        var tail := hits[1..];
        assert hits == [h] + tail;
        TraceUncons(docs, h, tail);
        assert h == Hit(b, docs[j], j, n);
        OrderCons(bullets, h, tail);
        MissedCons(bullets, docs, h, tail);
        TraceIsUnique(front, Remove(docs, j), tail);
        var rest := Resolve(front, Remove(docs, j));
        assert Resolve(bullets, docs) == Outcome(rest.bullets, rest.docs, [h] + rest.hits);
    }
  }

  /** The hit from the last bullet, when there is one, comes first. */
  lemma FirstShot(bullets: seq<Bullet>, hits: seq<Hit>)
    requires |bullets| > 0 && InLoopOrder(bullets, hits) && |bullets| - 1 in Shots(hits)
    ensures |hits| > 0 && hits[0].bulletIndex == |bullets| - 1
  {
    var h :| h in hits && h.bulletIndex == |bullets| - 1;
    var k :| 0 <= k < |hits| && hits[k] == h;
    HeadShot(bullets, hits);
  }

  /** The head of a trace names the highest bullet index of all its hits. */
  lemma HeadShot(bullets: seq<Bullet>, hits: seq<Hit>)
    requires InLoopOrder(bullets, hits)
    ensures |hits| > 0 ==> hits[0].bulletIndex < |bullets|
    ensures forall k | 0 < k < |hits| :: hits[k].bulletIndex < hits[0].bulletIndex
  {
  }

  /** The last bullet has no hit when the first hit is not its own. */
  lemma NotShot(bullets: seq<Bullet>, hits: seq<Hit>)
    requires |bullets| > 0 && InLoopOrder(bullets, hits)
    requires |hits| > 0 ==> hits[0].bulletIndex != |bullets| - 1
    ensures |bullets| - 1 !in Shots(hits)
  {
    forall h | h in hits
      ensures h.bulletIndex != |bullets| - 1
    {
      var k :| 0 <= k < |hits| && hits[k] == h;
      HeadShot(bullets, hits);
    }
  }

  lemma ShotsCons(h: Hit, tail: seq<Hit>)
    ensures Shots([h] + tail) == {h.bulletIndex} + Shots(tail)
  {
    assert forall x | x in [h] + tail :: x == h || x in tail;
  }

  /** A trace over a shorter list names only its indices. */
  lemma ShotsBelow(bullets: seq<Bullet>, hits: seq<Hit>)
    requires InLoopOrder(bullets, hits)
    ensures forall k | k in Shots(hits) :: k < |bullets|
  {
    forall k | k in Shots(hits)
      ensures k < |bullets|
    {
      var h :| h in hits && h.bulletIndex == k;
      var t :| 0 <= t < |hits| && hits[t] == h;
    }
  }

  lemma {:induction false} UnhitSame(bullets: seq<Bullet>, used: set<nat>, used': set<nat>)
    requires forall k | 0 <= k < |bullets| :: k in used <==> k in used'
    ensures Unhit(bullets, used) == Unhit(bullets, used')
    decreases |bullets|
  {
    if |bullets| > 0 {
      UnhitSame(bullets[..|bullets| - 1], used, used');
    }
  }

  /** Order when the last bullet hit: its hit heads the list. */
  lemma OrderCons(bullets: seq<Bullet>, h: Hit, tail: seq<Hit>)
    requires |bullets| > 0 && h.bulletIndex == |bullets| - 1 && bullets[|bullets| - 1] == h.bullet
    ensures InLoopOrder(bullets, [h] + tail) <==> InLoopOrder(bullets[..|bullets| - 1], tail)
  {
    var n := |bullets| - 1;
    var hits := [h] + tail;
    if InLoopOrder(bullets, hits) {
      forall t | 0 <= t < |tail|
        ensures tail[t].bulletIndex < n && bullets[..n][tail[t].bulletIndex] == tail[t].bullet
      {
        assert tail[t] == hits[t + 1] && hits[0] == h;
        assert hits[0].bulletIndex > hits[t + 1].bulletIndex;
      }
      forall s, t | 0 <= s < t < |tail|
        ensures tail[s].bulletIndex > tail[t].bulletIndex
      {
        assert tail[s] == hits[s + 1] && tail[t] == hits[t + 1];
      }
    }
    if InLoopOrder(bullets[..n], tail) {
      forall t | 0 <= t < |hits|
        ensures hits[t].bulletIndex < |bullets| && bullets[hits[t].bulletIndex] == hits[t].bullet
      {
        if t > 0 {
          assert hits[t] == tail[t - 1];
        }
      }
      forall s, t | 0 <= s < t < |hits|
        ensures hits[s].bulletIndex > hits[t].bulletIndex
      {
        assert hits[t] == tail[t - 1];
        if s > 0 {
          assert hits[s] == tail[s - 1];
        }
      }
    }
  }

  /** Order when the last bullet hit nothing. */
  lemma OrderNone(bullets: seq<Bullet>, hits: seq<Hit>)
    requires |bullets| > 0 && |bullets| - 1 !in Shots(hits)
    ensures InLoopOrder(bullets, hits) <==> InLoopOrder(bullets[..|bullets| - 1], hits)
  {
    var n := |bullets| - 1;
    forall t | 0 <= t < |hits|
      ensures hits[t].bulletIndex != n
    {
      assert hits[t] in hits;
    }
  }

  /** Misses when the last bullet hit: the rest of the loop runs on the
      list without the removed document. */
  lemma MissedCons(bullets: seq<Bullet>, docs: seq<Document>, h: Hit, tail: seq<Hit>)
    requires |bullets| > 0 && h.bulletIndex == |bullets| - 1 && h.index < |docs|
    requires forall k | k in Shots(tail) :: k < |bullets| - 1
    ensures MissedAtTurn(bullets, docs, [h] + tail) <==>
            MissedAtTurn(bullets[..|bullets| - 1], Remove(docs, h.index), tail)
  {
    var n := |bullets| - 1;
    var hits := [h] + tail;
    ShotsCons(h, tail);
    assert hits[1..] == tail;
    forall i | 0 <= i < n
      ensures Replay(docs, hits[..HitsAbove(hits, i)]) == Replay(Remove(docs, h.index), tail[..HitsAbove(tail, i)])
    {
      var k := HitsAbove(tail, i);
      assert HitsAbove(hits, i) == 1 + k;
      assert hits[..1 + k] == [h] + tail[..k];
      assert ([h] + tail[..k])[1..] == tail[..k];
    }
  }

  /** Misses when the last bullet hit nothing: it met no document at all. */
  lemma MissedNone(bullets: seq<Bullet>, docs: seq<Document>, hits: seq<Hit>)
    requires |bullets| > 0
    requires forall k | k in Shots(hits) :: k < |bullets| - 1
    ensures MissedAtTurn(bullets, docs, hits) <==>
            MissedAtTurn(bullets[..|bullets| - 1], docs, hits) && LastHit(bullets[|bullets| - 1], docs).None?
  {
    var n := |bullets| - 1;
    assert |hits| == 0 || hits[0].bulletIndex in Shots(hits);
    assert HitsAbove(hits, n) == 0;
    assert hits[..0] == [];
  }

  lemma ReplayCons(docs: seq<Document>, h: Hit, rest: seq<Hit>)
    requires h.index < |docs|
    ensures Replay(docs, [h] + rest) == Replay(Remove(docs, h.index), rest)
  {
    assert ([h] + rest)[1..] == rest;
  }

  /** The head of a trace that follows LastHit, and the rest of it. */
  lemma TraceUncons(docs: seq<Document>, h: Hit, tail: seq<Hit>)
    requires FollowsLastHit(docs, [h] + tail)
    ensures h.index < |docs| && LastHit(h.bullet, docs) == Some(h.index) && docs[h.index] == h.doc
    ensures FollowsLastHit(Remove(docs, h.index), tail)
  {
    var hits := [h] + tail;
    assert HitFollows(docs, hits, 0);
    assert hits[..0] == [] && hits[0] == h;
    assert Replay(docs, []) == docs;
    forall t | 0 <= t < |tail|
      ensures HitFollows(Remove(docs, h.index), tail, t)
    {
      assert HitFollows(docs, hits, t + 1);
      HitFollowsTail(docs, h, tail, t);
    }
  }

  lemma HitFollowsTail(docs: seq<Document>, h: Hit, tail: seq<Hit>, t: nat)
    requires t < |tail| && h.index < |docs| && HitFollows(docs, [h] + tail, t + 1)
    ensures HitFollows(Remove(docs, h.index), tail, t)
  {
    var hits := [h] + tail;
    assert hits[t + 1] == tail[t];
    assert hits[..t + 1] == [h] + tail[..t];
    ReplayCons(docs, h, tail[..t]);
  }

  // ------------------------------------------------------------- properties

  lemma {:induction false} TotalValueAppend(a: seq<Document>, b: seq<Document>)
    ensures TotalValue(a + b) == TotalValue(a) + TotalValue(b)
    decreases |a|
  {
    if |a| == 0 {
      assert a + b == b;
    } else {
      assert (a + b)[1..] == a[1..] + b;
      TotalValueAppend(a[1..], b);
    }
  }

  /** Removing a document takes exactly its value out of the total. */
  lemma {:induction false} TotalValueRemove(docs: seq<Document>, j: nat)
    requires j < |docs|
    ensures TotalValue(Remove(docs, j)) + docs[j].value == TotalValue(docs)
    decreases j
  {
    if j == 0 {
      assert Remove(docs, 0) == docs[1..];
    } else {
      var tail := docs[1..];
      assert Remove(docs, j)[0] == docs[0];
      assert Remove(docs, j)[1..] == Remove(tail, j - 1);
      assert tail[j - 1] == docs[j];
      TotalValueRemove(tail, j - 1);
    }
  }

  /** Value is conserved by the pass: what the hits credit is exactly the
      value that left the field. */
  lemma {:induction false} ResolveConservesValue(bullets: seq<Bullet>, docs: seq<Document>)
    ensures var r := Resolve(bullets, docs);
            TotalValue(r.docs) + HitValue(r.hits) == TotalValue(docs)
    decreases |bullets|
  {
    if |bullets| == 0 {
      assert HitDocs([]) == [];
    } else {
      var n := |bullets| - 1;
      var b := bullets[n];
      var front := bullets[..n];
      match LastHit(b, docs)
      case None =>
        var rest := Resolve(front, docs);
        assert Resolve(bullets, docs) == Outcome(rest.bullets + [b], rest.docs, rest.hits);
        ResolveConservesValue(front, docs);
      case Some(j) =>
        var rest := Resolve(front, Remove(docs, j));
        assert Resolve(bullets, docs) == Outcome(rest.bullets, rest.docs, [Hit(b, docs[j], j, n)] + rest.hits);
        ResolveConservesValue(front, Remove(docs, j));
        HitStep(b, n, docs, j, rest.docs, rest.hits);
    }
  }

  /** One hit: removing document j and crediting it keeps the balance. */
  lemma HitStep(b: Bullet, n: nat, docs: seq<Document>, j: nat, left: seq<Document>, hits: seq<Hit>)
    requires j < |docs|
    requires TotalValue(left) + HitValue(hits) == TotalValue(Remove(docs, j))
    ensures TotalValue(left) + HitValue([Hit(b, docs[j], j, n)] + hits) == TotalValue(docs)
  {
    TotalValueRemove(docs, j);
    assert HitDocs([Hit(b, docs[j], j, n)] + hits) == [docs[j]] + HitDocs(hits);
    TotalValueAppend([docs[j]], HitDocs(hits));
    assert TotalValue([docs[j]]) == docs[j].value;
  }

  /** A bullet overlapping several documents removes the one with the
      highest index. */
  lemma TieGoesToLastDocument(b: Bullet, d0: Document, d1: Document)
    requires Overlaps(b, d0) && Overlaps(b, d1)
    ensures Resolve([b], [d0, d1]) == Outcome([], [d0], [Hit(b, d1, 1, 0)])
  {
    assert LastHit(b, [d0, d1]) == Some(1);
    assert Remove([d0, d1], 1) == [d0];
    assert [b][..0] == [];
  }

  /** A bullet that overlaps nothing passes through the pass untouched, and
      so do all documents. */
  lemma NoOverlapNoHit(bullets: seq<Bullet>, docs: seq<Document>)
    requires forall i, k | 0 <= i < |bullets| && 0 <= k < |docs| :: !Overlaps(bullets[i], docs[k])
    ensures Resolve(bullets, docs) == Outcome(bullets, docs, [])
    decreases |bullets|
  {
    if |bullets| > 0 {
      var n := |bullets| - 1;
      assert LastHit(bullets[n], docs).None?;
      NoOverlapNoHit(bullets[..n], docs);
      assert bullets[..n] + [bullets[n]] == bullets;
    }
  }
}

=== FILE: config.dfy ===
/** Shared vocabulary of the document-catching game: play modes, document
    categories, and the tuning record that distinguishes the two copies of
    the engine (game.js and public/game.js). */
module GameConfig {

  datatype Option<+T> = None | Some(value: T)

  /** `gameMode` of the source: 'manual' or 'ai'. */
  datatype Mode = Manual | Ai

  /** The four document types, in the order of the `types` array used when
      spawning ('high', 'medium', 'low', 'no-value'). */
  datatype Category = High | Medium | Low | NoValue

  /** How the sniper agent ("SubAgent") chooses its target. */
  datatype SniperPolicy =
    | PriorityInLeftZone  // left quarter of the field, ranked low < medium < high < no-value
    | LowValueOnly        // only 'low' documents, first in array order

  /** The constants that differ between the two copies of the engine. */
  datatype Config = Config(
    fieldWidth: real,          // canvas width
    fieldHeight: real,         // canvas height
    scaleWithTime: bool,       // spawn chance and fall speed grow with elapsed time
    speedBase: real,           // document speed is speedBase + draw * speedSpread
    speedSpread: real,
    playerSpeed: real,         // horizontal step per pressed arrow key
    playerRightEdge: real,     // the player moves right only while x < playerRightEdge - PlayerWidth
    homingStep: real,          // largest horizontal step toward a lane
    sniperPolicy: SniperPolicy,
    sniperMaxY: real,          // sniper considers documents with 0 < y < sniperMaxY
    sniperInterval: int,       // ms the sniper must wait (strictly) between shots
    requireGameScreen: bool,   // update runs only on the game screen
    startResetsMatch: bool,    // start also zeroes counters, clears lists and creates agents
    restartClearsAgents: bool  // restart drops both agents whatever the mode
  )

  // Constants shared by both copies.
  const BaseSpawnRate: real := 0.02
  const MatchSeconds: real := 60.0
  const MissLimit: nat := 20
  const DocWidth: real := 50.0
  const DocHeight: real := 60.0
  const SpawnY: real := -60.0
  const SpawnMargin: real := 60.0      // x is drawn in [0, fieldWidth - SpawnMargin)
  const BulletWidth: real := 4.0
  const BulletHeight: real := 10.0
  const BulletSpeed: real := 8.0
  const BulletTopLimit: real := -10.0  // a bullet survives while y > BulletTopLimit
  const PlayerWidth: real := 60.0
  const ManualCooldown: int := 500
  const AiCooldown: int := 100
  const ManualSpread: real := 3.0
  const LassoStep: int := 4
  const LassoMax: int := 100
  const LassoInterval: int := 300
  const CaptureTop: real := 50.0       // capture band is CaptureTop < y < CaptureBottom
  const CaptureBottom: real := 300.0
  const SniperZoneRight: real := 300.0 // left zone is x < SniperZoneRight
  const SniperMuzzleX: real := 70.0    // SubAgent x + width / 2
  const SniperMuzzleY: real := 550.0
  const ParticleLife: int := 30
  const HitParticles: nat := 10
  const MissParticles: nat := 5

  /** The constants of game.js. The canvas size comes from the page markup;
      1200 x 600 is the size its comments and defaults assume. */
  function GameJs(): Config {
    Config(fieldWidth := 1200.0, fieldHeight := 600.0, scaleWithTime := true,
           speedBase := 2.0, speedSpread := 3.0, playerSpeed := 12.0,
           playerRightEdge := 1200.0, homingStep := 12.0,
           sniperPolicy := PriorityInLeftZone, sniperMaxY := 500.0, sniperInterval := 150,
           requireGameScreen := true, startResetsMatch := true, restartClearsAgents := false)
  }

  /** The constants of public/game.js (player right edge hard-coded to 800). */
  function PublicGameJs(): Config {
    Config(fieldWidth := 800.0, fieldHeight := 600.0, scaleWithTime := false,
           speedBase := 1.0, speedSpread := 2.0, playerSpeed := 5.0,
           playerRightEdge := 800.0, homingStep := 8.0,
           sniperPolicy := LowValueOnly, sniperMaxY := 400.0, sniperInterval := 500,
           requireGameScreen := false, startResetsMatch := false, restartClearsAgents := true)
  }

  /** What the engine needs of its constants: a field wide enough to spawn
      into and strictly positive steps. */
  predicate ValidConfig(cfg: Config) {
    && cfg.fieldWidth >= SpawnMargin
    && cfg.fieldHeight > 0.0
    && cfg.speedBase > 0.0
    && cfg.speedSpread > 0.0
    && cfg.playerSpeed > 0.0
    && cfg.homingStep > 0.0
    && cfg.sniperInterval >= 0
  }

  lemma InstancesValid()
    ensures ValidConfig(GameJs()) && ValidConfig(PublicGameJs())
  {}
}

=== FILE: difficulty.dfy ===
/** The match clock and the difficulty scaler: remaining time from elapsed
    time (updateTimeBar), match progress, and the spawn-chance and fall-speed
    multipliers derived from it (update and spawnDocument of game.js). */
module Difficulty {
  import opened GameConfig

  /** Seconds elapsed between the match start and `now`, both in ms. */
  function ElapsedSeconds(startTime: int, now: int): real {
    (now - startTime) as real / 1000.0
  }

  /** `gameTime = Math.max(0, 60 - elapsed)`. */
  function TimeLeft(elapsed: real): (t: real)
    ensures t >= 0.0
    ensures elapsed >= 0.0 ==> t <= MatchSeconds
    ensures t == 0.0 <==> elapsed >= MatchSeconds
  {
    if MatchSeconds - elapsed > 0.0 then MatchSeconds - elapsed else 0.0
  }

  /** Remaining time never grows as the clock advances. */
  lemma TimeLeftNonIncreasing(e1: real, e2: real)
    requires e1 <= e2
    ensures TimeLeft(e2) <= TimeLeft(e1)
  {}

  /** `(60 - gameTime) / 60`: 0 at the start of a match, 1 at its end. */
  function Progress(gameTime: real): (p: real)
    ensures 0.0 <= gameTime <= MatchSeconds ==> 0.0 <= p <= 1.0
    ensures p == 0.0 <==> gameTime == MatchSeconds
    ensures p == 1.0 <==> gameTime == 0.0
  {
    (MatchSeconds - gameTime) / MatchSeconds
  }

  /** Factor applied to the base spawn chance: 1 + 2p when scaling, else 1. */
  function SpawnMultiplier(cfg: Config, gameTime: real): real {
    if cfg.scaleWithTime then 1.0 + Progress(gameTime) * 2.0 else 1.0
  }

  /** Factor applied to a new document's speed: 1 + 1.5p when scaling, else 1. */
  function SpeedMultiplier(cfg: Config, gameTime: real): real {
    if cfg.scaleWithTime then 1.0 + Progress(gameTime) * 1.5 else 1.0
  }

  /** The chance that a tick spawns a document. */
  function SpawnChance(cfg: Config, gameTime: real): real {
    BaseSpawnRate * SpawnMultiplier(cfg, gameTime)
  }

  /** The multipliers stay in [1, 3] and [1, 2.5], start at 1 and reach
      their maximum exactly when time runs out (when scaling). */
  lemma MultipliersBounded(cfg: Config, gameTime: real)
    requires 0.0 <= gameTime <= MatchSeconds
    ensures 1.0 <= SpawnMultiplier(cfg, gameTime) <= 3.0
    ensures 1.0 <= SpeedMultiplier(cfg, gameTime) <= 2.5
    ensures gameTime == MatchSeconds ==>
              SpawnMultiplier(cfg, gameTime) == 1.0 && SpeedMultiplier(cfg, gameTime) == 1.0
    ensures cfg.scaleWithTime && gameTime == 0.0 ==>
              SpawnMultiplier(cfg, gameTime) == 3.0 && SpeedMultiplier(cfg, gameTime) == 2.5
    ensures !cfg.scaleWithTime ==> SpawnChance(cfg, gameTime) == BaseSpawnRate
  {
    var p := Progress(gameTime);
    assert 0.0 <= p <= 1.0;
  }

  /** Both multipliers are non-decreasing in elapsed match time. */
  lemma MultipliersMonotone(cfg: Config, e1: real, e2: real)
    requires 0.0 <= e1 <= e2
    ensures SpawnMultiplier(cfg, TimeLeft(e1)) <= SpawnMultiplier(cfg, TimeLeft(e2))
    ensures SpeedMultiplier(cfg, TimeLeft(e1)) <= SpeedMultiplier(cfg, TimeLeft(e2))
  {
    TimeLeftNonIncreasing(e1, e2);
    var t1, t2 := TimeLeft(e1), TimeLeft(e2);
    assert Progress(t1) <= Progress(t2);
  }
}

=== FILE: engine.dfy ===
/** The match: game state, spawning, one tick of update(), and the start,
    restart and setMode commands, for both copies of the engine. The clock
    (Date.now) and every Math.random draw arrive as parameters. */
module Engine {
  import opened GameConfig
  import opened Values
  import opened Difficulty
  import opened Entities
  import opened Collision
  import opened Agents

  /** The random draws one tick consumes, in [0, 1) each. */
  datatype Draws = Draws(spawn: real, category: real, x: real, speed: real, value: real, spread: real)

  predicate ValidDraws(dr: Draws) {
    IsDraw(dr.spawn) && IsDraw(dr.category) && IsDraw(dr.x) &&
    IsDraw(dr.speed) && IsDraw(dr.value) && IsDraw(dr.spread)
  }

  /** Everything one call of update() reads from outside the game: the
      current time in ms, the pressed keys, the random draws, and the
      velocity the sniper's aimed bullet would get. */
  datatype TickInput = TickInput(now: int, keys: Keys, draws: Draws, aimVx: real, aimVy: real)

  datatype Game = Game(
    mode: Mode,
    running: bool,
    onGameScreen: bool,
    startTime: int,
    gameTime: real,
    score: int,
    revenue: int,
    processed: nat,
    missed: nat,
    total: nat,
    nextId: nat,
    player: Player,
    bullets: seq<Bullet>,
    docs: seq<Document>,
    particles: seq<Particle>,
    main: Option<MainAgent>,
    sub: Option<SubAgent>)

  /** What holds of every state a match can reach. `nextId` is the id the
      next spawned document gets; no command resets it, so a document's id
      names that one object for the whole session, the way the source's
      lassos hold the document object itself. */
  predicate Inv(g: Game) {
    && Accounted(g)
    && 0.0 <= g.gameTime <= MatchSeconds
    && IdsIn(g.docs, 0, g.nextId)
    && (g.main.Some? ==> TargetsBelow(g.main.value.lassos, g.nextId))
  }

  /** The part of Inv every step of a tick keeps on its own: the counter
      identity, value bands, living particles, score == revenue and lasso
      progress below completion. */
  predicate Accounted(g: Game) {
    && g.total == g.processed + g.missed + |g.docs|
    && AllInBand(g.docs)
    && AllAlive(g.particles)
    && g.score == g.revenue && g.score >= 0
    && (g.main.Some? ==> forall l | l in g.main.value.lassos :: l.progress < LassoMax)
  }

  function InitialPlayer(cfg: Config): Player {
    Player(cfg.fieldWidth / 2.0, cfg.fieldHeight - 50.0, 0)
  }

  /** The state the constructor builds. */
  function Initial(cfg: Config): (g: Game)
    ensures Inv(g) && !g.running && g.mode == Manual
    ensures g.total == 0 && g.docs == [] && g.main.None? && g.sub.None?
  {
    Game(Manual, false, false, 0, MatchSeconds, 0, 0, 0, 0, 0, 0,
         InitialPlayer(cfg), [], [], [], None, None)
  }

  /** update() runs only while this holds. */
  predicate Active(cfg: Config, g: Game) {
    g.running && (cfg.requireGameScreen ==> g.onGameScreen)
  }

  // ------------------------------------------------------------- spawning

  /** spawnDocument's new document: category, x, speed and value from the
      draws; speed scaled by the time multiplier in game.js. */
  function NewDocument(cfg: Config, id: nat, mode: Mode, gameTime: real, dr: Draws): (d: Document)
    requires ValidConfig(cfg) && ValidDraws(dr)
    requires 0.0 <= gameTime <= MatchSeconds
    ensures d.id == id && InBand(d.cat, d.value)
    ensures d.y == SpawnY && 0.0 <= d.x <= cfg.fieldWidth - SpawnMargin
    ensures !d.lassoed && d.targetX.None? && d.classified == (mode == Ai)
    ensures cfg.speedBase * SpeedMultiplier(cfg, gameTime) <= d.speed
    ensures d.speed < (cfg.speedBase + cfg.speedSpread) * SpeedMultiplier(cfg, gameTime)
  {
    var c := CategoryFromDraw(dr.category);
    DrawValueInBand(c, dr.value);
    var w := cfg.fieldWidth - SpawnMargin;
    ScaleDraw(dr.x, w);
    assert 0.0 <= dr.x * w <= w;
    var m := SpeedMultiplier(cfg, gameTime);
    MultipliersBounded(cfg, gameTime);
    Document(id, dr.x * w, SpawnY, SpawnSpeed(cfg.speedBase, cfg.speedSpread, m, dr.speed),
             c, DrawValue(c, dr.value), mode == Ai, false, None)
  }

  /** `(base + draw * spread) * multiplier`: a spawned document's speed. */
  function SpawnSpeed(base: real, spread: real, m: real, r: real): (s: real)
    requires spread > 0.0 && IsDraw(r) && m >= 1.0
    ensures base * m <= s < (base + spread) * m
  {
    SpeedBounds(base, spread, r, m);
    (base + r * spread) * m
  }

  lemma SpeedBounds(lo: real, spread: real, r: real, m: real)
    requires spread > 0.0 && IsDraw(r) && m >= 1.0
    ensures lo * m <= (lo + r * spread) * m < (lo + spread) * m
  {
    var a := r * spread;
    ScaleDraw(r, spread);
    ScaleStrict(a, spread, m);
    assert (lo + a) * m == lo * m + a * m;
    assert (lo + spread) * m == lo * m + spread * m;
  }

  /** A draw in [0, 1) scales a non-negative width into [0, width]. */
  lemma ScaleDraw(r: real, w: real)
    requires IsDraw(r) && w >= 0.0
    ensures 0.0 <= r * w <= w
    ensures w > 0.0 ==> r * w < w
  {}

  lemma ScaleStrict(a: real, b: real, m: real)
    requires 0.0 <= a < b && m >= 1.0
    ensures 0.0 <= a * m < b * m
  {}

  /** The spawn step of update(): at most one document per tick, appended
      to the list and counted in the total. */
  function SpawnStep(cfg: Config, g: Game, dr: Draws): (r: Game)
    requires ValidConfig(cfg) && ValidDraws(dr)
    requires 0.0 <= g.gameTime <= MatchSeconds
    ensures r.total - g.total == |r.docs| - |g.docs|
    ensures r.total == g.total + 1 <==> dr.spawn < SpawnChance(cfg, g.gameTime)
    ensures r.total == g.total ==> r == g
    ensures r.total == g.total + 1 ==>
              && r == g.(docs := r.docs, total := r.total, nextId := g.nextId + 1)
              && r.docs == g.docs + [r.docs[|g.docs|]]
              && r.docs[|g.docs|].id == g.nextId
              && InBand(r.docs[|g.docs|].cat, r.docs[|g.docs|].value)
              && r.docs[|g.docs|].y == SpawnY && !r.docs[|g.docs|].lassoed
  {
    if dr.spawn < SpawnChance(cfg, g.gameTime) then
      var d := NewDocument(cfg, g.nextId, g.mode, g.gameTime, dr);
      g.(docs := g.docs + [d], total := g.total + 1, nextId := g.nextId + 1)
    else g
  }

  // ------------------------------------------------------------ the player

  /** Player.update, then a shot when fire is held and the cooldown allows. */
  function PlayerStep(cfg: Config, g: Game, keys: Keys, now: int, draw: real): (r: Game)
    requires ValidConfig(cfg) && IsDraw(draw)
    ensures r == g.(player := r.player, bullets := r.bullets)
    ensures r.player == MovePlayer(cfg, g.player, keys).(lastShot := r.player.lastShot)
    ensures |g.bullets| <= |r.bullets| && r.bullets[..|g.bullets|] == g.bullets
    ensures keys.fire && CanShoot(g.mode, g.player.lastShot, now) ==>
              && r.player.lastShot == now
              && r.bullets == g.bullets + [PlayerBullet(MovePlayer(cfg, g.player, keys), g.mode, draw)]
              && r.bullets[|g.bullets|].vy == -BulletSpeed
    ensures !(keys.fire && CanShoot(g.mode, g.player.lastShot, now)) ==>
              r.bullets == g.bullets && r.player.lastShot == g.player.lastShot
  {
    var p := MovePlayer(cfg, g.player, keys);
    if keys.fire && CanShoot(g.mode, p.lastShot, now) then
      var b := PlayerBullet(p, g.mode, draw);
      assert (g.bullets + [b])[..|g.bullets|] == g.bullets;
      assert (g.bullets + [b])[|g.bullets|] == b;
      g.(player := p.(lastShot := now), bullets := g.bullets + [b])
    else
      g.(player := p)
  }

  // ------------------------------------------------------------- the sweeps

  /** Bullet pass and document pass: a document below the field is a miss
      and leaves a burst of MissParticles particles. */
  function MotionStep(cfg: Config, g: Game): (r: Game)
    requires ValidConfig(cfg)
    ensures r == g.(bullets := r.bullets, docs := r.docs, missed := r.missed, particles := r.particles)
    ensures r.missed - g.missed == |g.docs| - |r.docs|
    ensures |r.particles| == |g.particles| + MissParticles * (r.missed - g.missed)
    ensures r.missed >= g.missed && r.particles == g.particles + Burst(MissParticles * (r.missed - g.missed))
    ensures forall k | |g.particles| <= k < |r.particles| :: r.particles[k].life == ParticleLife
    ensures AllInBand(g.docs) ==> AllInBand(r.docs)
    ensures AllAlive(g.particles) ==> AllAlive(r.particles)
    ensures forall d | d in r.docs :: d.y <= cfg.fieldHeight
    ensures forall d :: multiset(r.docs)[d] ==
              if d.y <= cfg.fieldHeight then multiset(MoveAll(g.docs, cfg.homingStep))[d] else 0
    ensures r.missed - g.missed == Fallen(MoveAll(g.docs, cfg.homingStep), cfg.fieldHeight)
    ensures forall d | d in r.docs :: exists i | 0 <= i < |g.docs| :: d == MoveDocument(g.docs[i], cfg.homingStep)
    ensures forall b :: multiset(r.bullets)[b] ==
              if b.y > BulletTopLimit then multiset(MoveBullets(g.bullets))[b] else 0
  {
    var s := SweepDocuments(g.docs, cfg.fieldHeight, cfg.homingStep);
    SweepIsFilter(g.docs, cfg.fieldHeight, cfg.homingStep);
    SweepCountsFallen(g.docs, cfg.fieldHeight, cfg.homingStep);
    SweepKeepsIdentity(g.docs, cfg.fieldHeight, cfg.homingStep);
    AdvanceBulletsIsFilter(g.bullets);
    g.(bullets := AdvanceBullets(g.bullets), docs := s.kept, missed := g.missed + s.missed,
       particles := g.particles + Burst(MissParticles * s.missed))
  }

  lemma SameDocumentsInBand(a: seq<Document>, b: seq<Document>)
    requires |a| == |b| && forall i | 0 <= i < |a| :: SameDocument(a[i], b[i])
    requires AllInBand(a)
    ensures AllInBand(b)
  {
    forall d | d in b
      ensures InBand(d.cat, d.value)
    {
      var i :| 0 <= i < |b| && b[i] == d;
      assert a[i] in a;
    }
  }

  /** The sorter's turn, when it is present. */
  function SorterStep(g: Game, now: int): (r: Game)
    ensures r == g.(docs := r.docs, main := r.main)
    ensures |r.docs| == |g.docs|
    ensures AllInBand(g.docs) ==> AllInBand(r.docs)
    ensures r.main.Some? <==> g.main.Some?
    ensures r.main.Some? ==> forall l | l in r.main.value.lassos :: l.progress < LassoMax
    ensures g.main.None? ==> r == g
    ensures g.main.Some? ==> r.main.Some? && SorterSpec(g.main.value, g.docs, now, Capture(r.main.value, r.docs))
  {
    match g.main
    case None => g
    case Some(a) =>
      var c := MainAgentStep(a, g.docs, now);
      assert AllInBand(g.docs) ==> AllInBand(c.docs) by {
        if AllInBand(g.docs) {
          SameDocumentsInBand(g.docs, c.docs);
        }
      }
      g.(main := Some(c.agent), docs := c.docs)
  }

  /** The sniper's turn, when it is present. */
  function SniperStep(cfg: Config, g: Game, now: int, vx: real, vy: real): (r: Game)
    ensures r == g.(bullets := r.bullets, sub := r.sub)
    ensures r.sub.Some? <==> g.sub.Some?
    ensures |g.bullets| <= |r.bullets| <= |g.bullets| + 1
    ensures g.sub.None? ==> r == g
    ensures g.sub.Some? && SniperDue(cfg, g.sub.value, g.docs, now) ==>
              r == g.(sub := Some(SubAgent(now)), bullets := g.bullets + [SniperBullet(vx, vy)])
    ensures g.sub.Some? && !SniperDue(cfg, g.sub.value, g.docs, now) ==> r == g
  {
    match g.sub
    case None => g
    case Some(s) =>
      var shot := SubAgentStep(cfg, s, g.docs, g.bullets, now, vx, vy);
      g.(sub := Some(shot.agent), bullets := shot.bullets)
  }

  /** The particle pass. */
  function ParticleStep(g: Game): (r: Game)
    ensures r == g.(particles := r.particles)
    ensures |r.particles| <= |g.particles|
    ensures AllAlive(g.particles) ==> AllAlive(r.particles)
    ensures forall q :: multiset(r.particles)[q] == if q.life > 0 then multiset(Aged(g.particles))[q] else 0
  {
    AgeParticlesIsFilter(g.particles);
    g.(particles := AgeParticles(g.particles))
  }

  // ----------------------------------------------------------- collisions

  /** checkCollisions: each hit removes its bullet and document, counts the
      document as processed, credits its value to score and revenue, and
      leaves a burst of HitParticles particles. */
  function CollisionStep(g: Game): (r: Game)
    ensures r == g.(bullets := r.bullets, docs := r.docs, processed := r.processed,
                    score := r.score, revenue := r.revenue, particles := r.particles)
    ensures var hits := r.processed - g.processed;
            && hits >= 0
            && |r.docs| + hits == |g.docs|
            && |r.bullets| + hits == |g.bullets|
            && |r.particles| == |g.particles| + HitParticles * hits
            && r.particles == g.particles + Burst(HitParticles * hits)
    ensures forall k | |g.particles| <= k < |r.particles| :: r.particles[k].life == ParticleLife
    ensures r.score - g.score == r.revenue - g.revenue == TotalValue(g.docs) - TotalValue(r.docs)
    ensures forall d | d in r.docs :: d in g.docs
    ensures AllInBand(g.docs) ==> r.score >= g.score
    ensures AllAlive(g.particles) ==> AllAlive(r.particles)
    ensures forall b, d | b in r.bullets && d in r.docs :: !Overlaps(b, d)
    ensures exists hits: seq<Hit> ::
              && IsTrace(g.bullets, g.docs, hits)
              && |hits| == r.processed - g.processed
              && r.docs == Replay(g.docs, hits)
              && r.bullets == Unhit(g.bullets, Shots(hits))
              && multiset(r.bullets) + multiset(HitBullets(hits)) == multiset(g.bullets)
              && multiset(r.docs) + multiset(HitDocs(hits)) == multiset(g.docs)
  {
    var o := Resolve(g.bullets, g.docs);
    var v := HitValue(o.hits);
    ResolveConservesValue(g.bullets, g.docs);
    ResolveComplete(g.bullets, g.docs);
    ResolveIsTrace(g.bullets, g.docs);
    ResolvePartitions(g.bullets, g.docs);
    assert AllInBand(g.docs) ==> v >= 0 by {
      if AllInBand(g.docs) {
        HitValueNonNegative(g.docs, o.hits);
      }
    }
    g.(bullets := o.bullets, docs := o.docs, processed := g.processed + |o.hits|,
       score := g.score + v, revenue := g.revenue + v,
       particles := g.particles + Burst(HitParticles * |o.hits|))
  }

  lemma {:induction false} TotalValueNonNegative(docs: seq<Document>)
    requires forall d | d in docs :: d.value >= 0
    ensures TotalValue(docs) >= 0
    decreases |docs|
  {
    if |docs| > 0 {
      assert forall d | d in docs[1..] :: d in docs;
      TotalValueNonNegative(docs[1..]);
    }
  }

  lemma HitValueNonNegative(docs: seq<Document>, hits: seq<Hit>)
    requires AllInBand(docs)
    requires forall h | h in hits :: h.doc in docs
    ensures HitValue(hits) >= 0
  {
    var hd := HitDocs(hits);
    forall d | d in hd
      ensures d.value >= 0
    {
      var i :| 0 <= i < |hd| && hd[i] == d;
      assert hits[i] in hits;
    }
    TotalValueNonNegative(hd);
  }

  // ------------------------------------------------------ clock and ending

  /** updateTimeBar then the game-over check. */
  function EndStep(g: Game, now: int): (r: Game)
    ensures r == g.(gameTime := r.gameTime, running := r.running)
    ensures r.gameTime == TimeLeft(ElapsedSeconds(g.startTime, now))
    ensures r.running <==> g.running && r.missed <= MissLimit && r.gameTime > 0.0
  {
    var t := TimeLeft(ElapsedSeconds(g.startTime, now));
    var g1 := g.(gameTime := t);
    if g1.missed > MissLimit || g1.gameTime <= 0.0 then g1.(running := false) else g1
  }

  /** One call of update(). */
  function Tick(cfg: Config, g: Game, input: TickInput): (r: Game)
    requires ValidConfig(cfg) && ValidDraws(input.draws)
    requires 0.0 <= g.gameTime <= MatchSeconds
    ensures !Active(cfg, g) ==> r == g
    ensures Active(cfg, g) ==>
              && r.gameTime == TimeLeft(ElapsedSeconds(g.startTime, input.now))
              && (r.running <==> r.missed <= MissLimit && r.gameTime > 0.0)
    ensures r.total == g.total || r.total == g.total + 1
    ensures r.processed >= g.processed && r.missed >= g.missed
    ensures r.total - g.total == (r.processed - g.processed) + (r.missed - g.missed) + (|r.docs| - |g.docs|)
    ensures r.mode == g.mode && r.startTime == g.startTime && r.onGameScreen == g.onGameScreen
    ensures r.nextId == g.nextId + (r.total - g.total)
  {
    if !Active(cfg, g) then g
    else
      var g1 := SpawnStep(cfg, g, input.draws);
      var g2 := PlayerStep(cfg, g1, input.keys, input.now, input.draws.spread);
      var g3 := MotionStep(cfg, g2);
      var g4 := SniperStep(cfg, SorterStep(g3, input.now), input.now, input.aimVx, input.aimVy);
      var g5 := ParticleStep(g4);
      var g6 := CollisionStep(g5);
      EndStep(g6, input.now)
  }

  /** The counter identity, the value bands, particle lifetimes, lasso
      progress, score == revenue and the time bound hold after every tick
      (given a clock that does not run behind the match start). */
  lemma TickPreservesInv(cfg: Config, g: Game, input: TickInput)
    requires ValidConfig(cfg) && ValidDraws(input.draws)
    requires Inv(g) && input.now >= g.startTime
    ensures Inv(Tick(cfg, g, input))
  {
    TickKeepsCounts(cfg, g, input);
    TickKeepsIds(cfg, g, input, 0);
    TickKeepsTargets(cfg, g, input);
  }

  /** The parts of Inv about counters, bands, particles, lasso progress,
      score and time. */
  lemma TickKeepsCounts(cfg: Config, g: Game, input: TickInput)
    requires ValidConfig(cfg) && ValidDraws(input.draws)
    requires Inv(g) && input.now >= g.startTime
    ensures var r := Tick(cfg, g, input);
            Accounted(r) && 0.0 <= r.gameTime <= MatchSeconds
  {
    if Active(cfg, g) {
      var g3 := MotionStep(cfg, PlayerStep(cfg, SpawnStep(cfg, g, input.draws), input.keys, input.now, input.draws.spread));
      EarlyStepsKeepAccounted(cfg, g, input);
      var g6 := CollisionStep(ParticleStep(SniperStep(cfg, SorterStep(g3, input.now), input.now, input.aimVx, input.aimVy)));
      LateStepsKeepAccounted(cfg, g3, input.now, input.aimVx, input.aimVy);
      assert EndStep(g6, input.now) == Tick(cfg, g, input);
    }
  }

  /** Spawn, player and motion steps keep Accounted. */
  lemma EarlyStepsKeepAccounted(cfg: Config, g: Game, input: TickInput)
    requires ValidConfig(cfg) && ValidDraws(input.draws)
    requires Accounted(g) && 0.0 <= g.gameTime <= MatchSeconds
    ensures Accounted(MotionStep(cfg, PlayerStep(cfg, SpawnStep(cfg, g, input.draws), input.keys, input.now, input.draws.spread)))
  {
    var g1 := SpawnStep(cfg, g, input.draws);
    assert AllInBand(g1.docs) by {
      if g1.total == g.total + 1 {
        assert g1.docs == g.docs + [g1.docs[|g.docs|]];
      }
    }
  }

  /** Sorter, sniper, particle and collision steps keep Accounted. */
  lemma LateStepsKeepAccounted(cfg: Config, g: Game, now: int, vx: real, vy: real)
    requires Accounted(g)
    ensures Accounted(CollisionStep(ParticleStep(SniperStep(cfg, SorterStep(g, now), now, vx, vy))))
  {
    var g1 := SorterStep(g, now);
    assert Accounted(g1);
    var g2 := SniperStep(cfg, g1, now, vx, vy);
    assert Accounted(g2);
    var g3 := ParticleStep(g2);
    assert Accounted(g3);
    var g4 := CollisionStep(g3);
    assert g4.total == g4.processed + g4.missed + |g4.docs|;
    assert AllInBand(g4.docs);
  }

  /** A sequence of update() calls, all at or after the match start. */
  predicate ValidInputs(g: Game, inputs: seq<TickInput>) {
    forall k | 0 <= k < |inputs| :: ValidDraws(inputs[k].draws) && inputs[k].now >= g.startTime
  }

  function Run(cfg: Config, g: Game, inputs: seq<TickInput>): Game
    requires ValidConfig(cfg) && ValidInputs(g, inputs)
    requires 0.0 <= g.gameTime <= MatchSeconds
    decreases |inputs|
  {
    if |inputs| == 0 then g
    else
      var g1 := Tick(cfg, g, inputs[0]);
      assert ValidInputs(g1, inputs[1..]) by {
        assert forall k | 0 <= k < |inputs[1..]| :: inputs[1..][k] == inputs[k + 1];
      }
      Run(cfg, g1, inputs[1..])
  }

  /** Over any run, every document present has an id of at least `lo`
      when every document at its start had. */
  lemma {:induction false} RunKeepsIds(cfg: Config, g: Game, inputs: seq<TickInput>, lo: int)
    requires ValidConfig(cfg) && ValidInputs(g, inputs)
    requires 0.0 <= g.gameTime <= MatchSeconds
    requires lo <= g.nextId && IdsIn(g.docs, lo, g.nextId)
    ensures var r := Run(cfg, g, inputs);
            r.nextId >= g.nextId && IdsIn(r.docs, lo, r.nextId)
    decreases |inputs|
  {
    if |inputs| > 0 {
      var g1 := Tick(cfg, g, inputs[0]);
      TickKeepsIds(cfg, g, inputs[0], lo);
      assert ValidInputs(g1, inputs[1..]) by {
        assert forall k | 0 <= k < |inputs[1..]| :: inputs[1..][k] == inputs[k + 1];
      }
      RunKeepsIds(cfg, g1, inputs[1..], lo);
    }
  }

  /** In game.js restart keeps the sorter and its lassos, which were thrown
      at documents of the finished match. None of them ever catches a
      document of the new match, however many updates follow. */
  lemma RestartedLassosStayStale(cfg: Config, g: Game, now: int, inputs: seq<TickInput>)
    requires ValidConfig(cfg) && Inv(g)
    requires ValidInputs(Restart(cfg, g, now), inputs)
    ensures var r := Restart(cfg, g, now);
            var h := Run(cfg, r, inputs);
            r.main.Some? ==>
              forall l, d | l in r.main.value.lassos && d in h.docs :: l.targetId != d.id
  {
    var r := Restart(cfg, g, now);
    RunKeepsIds(cfg, r, inputs, r.nextId);
  }

  /** The sorter keeps every document's id. */
  lemma SorterKeepsIds(g: Game, now: int, lo: int, hi: int)
    requires IdsIn(g.docs, lo, hi)
    ensures IdsIn(SorterStep(g, now).docs, lo, hi)
  {
    var r := SorterStep(g, now);
    forall d | d in r.docs
      ensures lo <= d.id < hi
    {
      var i :| 0 <= i < |r.docs| && r.docs[i] == d;
      assert g.docs[i] in g.docs;
      if g.main.Some? {
        assert SorterKeepsDocuments(g.docs, Capture(r.main.value, r.docs));
        assert SameDocument(g.docs[i], r.docs[i]);
      }
    }
  }

  /** The document sweep keeps every surviving document's id. */
  lemma MotionKeepsIds(cfg: Config, g: Game, lo: int, hi: int)
    requires ValidConfig(cfg) && IdsIn(g.docs, lo, hi)
    ensures IdsIn(MotionStep(cfg, g).docs, lo, hi)
  {
    var r := MotionStep(cfg, g);
    forall d | d in r.docs
      ensures lo <= d.id < hi
    {
      var i :| 0 <= i < |g.docs| && d == MoveDocument(g.docs[i], cfg.homingStep);
      assert g.docs[i] in g.docs;
    }
  }

  /** Within a tick every document present has an id in [lo, nextId): the
      spawned document takes nextId, which then moves up by one, and every
      other step keeps, drops or edits documents without changing an id. */
  lemma TickKeepsIds(cfg: Config, g: Game, input: TickInput, lo: int)
    requires ValidConfig(cfg) && ValidDraws(input.draws)
    requires 0.0 <= g.gameTime <= MatchSeconds
    requires lo <= g.nextId && IdsIn(g.docs, lo, g.nextId)
    ensures var r := Tick(cfg, g, input);
            r.nextId >= g.nextId && IdsIn(r.docs, lo, r.nextId)
  {
    if Active(cfg, g) {
      var g3 := EarlySteps(cfg, g, input);
      EarlyStepsKeepIds(cfg, g, input, lo);
      LateStepsKeepIds(cfg, g3, input.now, input.aimVx, input.aimVy, lo, g3.nextId);
      var g6 := CollisionStep(ParticleStep(SniperStep(cfg, SorterStep(g3, input.now), input.now, input.aimVx, input.aimVy)));
      assert EndStep(g6, input.now) == Tick(cfg, g, input);
    }
  }

  /** Spawn, player and motion steps: the first half of a tick. */
  function EarlySteps(cfg: Config, g: Game, input: TickInput): Game
    requires ValidConfig(cfg) && ValidDraws(input.draws)
    requires 0.0 <= g.gameTime <= MatchSeconds
  {
    MotionStep(cfg, PlayerStep(cfg, SpawnStep(cfg, g, input.draws), input.keys, input.now, input.draws.spread))
  }

  /** The first half of a tick moves nextId up past the spawned document's
      id and leaves the sorter alone. */
  lemma EarlyStepsKeepIds(cfg: Config, g: Game, input: TickInput, lo: int)
    requires ValidConfig(cfg) && ValidDraws(input.draws)
    requires 0.0 <= g.gameTime <= MatchSeconds
    requires lo <= g.nextId && IdsIn(g.docs, lo, g.nextId)
    ensures var r := EarlySteps(cfg, g, input);
            && r.nextId >= g.nextId && IdsIn(r.docs, lo, r.nextId) && r.main == g.main
  {
    var g1 := SpawnStep(cfg, g, input.draws);
    assert IdsIn(g1.docs, lo, g1.nextId);
    var g2 := PlayerStep(cfg, g1, input.keys, input.now, input.draws.spread);
    MotionKeepsIds(cfg, g2, lo, g2.nextId);
  }

  /** Sorter, sniper, particle and collision steps keep every id in
      [lo, hi), keep nextId and leave the sorter as SorterStep made it. */
  lemma LateStepsKeepIds(cfg: Config, g: Game, now: int, vx: real, vy: real, lo: int, hi: int)
    requires IdsIn(g.docs, lo, hi)
    ensures var r := CollisionStep(ParticleStep(SniperStep(cfg, SorterStep(g, now), now, vx, vy)));
            && IdsIn(r.docs, lo, hi) && r.nextId == g.nextId && r.main == SorterStep(g, now).main
  {
    var g1 := SorterStep(g, now);
    SorterKeepsIds(g, now, lo, hi);
    var g2 := SniperStep(cfg, g1, now, vx, vy);
    assert IdsIn(g2.docs, lo, hi);
    var g3 := ParticleStep(g2);
    assert IdsIn(g3.docs, lo, hi);
    var g4 := CollisionStep(g3);
    assert IdsIn(g4.docs, lo, hi);
  }

  /** Lassos only ever point at documents that have been spawned. */
  lemma TickKeepsTargets(cfg: Config, g: Game, input: TickInput)
    requires ValidConfig(cfg) && ValidDraws(input.draws)
    requires 0.0 <= g.gameTime <= MatchSeconds
    requires IdsIn(g.docs, 0, g.nextId)
    requires g.main.Some? ==> TargetsBelow(g.main.value.lassos, g.nextId)
    ensures var r := Tick(cfg, g, input);
            r.main.Some? ==> TargetsBelow(r.main.value.lassos, r.nextId)
  {
    if Active(cfg, g) {
      var g3 := EarlySteps(cfg, g, input);
      EarlyStepsKeepIds(cfg, g, input, 0);
      SorterStepTargetsBelow(g3, input.now);
      LateStepsKeepIds(cfg, g3, input.now, input.aimVx, input.aimVy, 0, g3.nextId);
      TickIsStages(cfg, g, input);
    }
  }

  /** An active tick is its early steps, then the late ones, then EndStep. */
  lemma TickIsStages(cfg: Config, g: Game, input: TickInput)
    requires ValidConfig(cfg) && ValidDraws(input.draws)
    requires 0.0 <= g.gameTime <= MatchSeconds && Active(cfg, g)
    ensures var g3 := EarlySteps(cfg, g, input);
            Tick(cfg, g, input) ==
              EndStep(CollisionStep(ParticleStep(SniperStep(cfg, SorterStep(g3, input.now), input.now, input.aimVx, input.aimVy))), input.now)
  {
  }

  lemma SorterStepTargetsBelow(g: Game, now: int)
    requires IdsIn(g.docs, 0, g.nextId)
    requires g.main.Some? ==> TargetsBelow(g.main.value.lassos, g.nextId)
    ensures var r := SorterStep(g, now);
            r.main.Some? ==> TargetsBelow(r.main.value.lassos, g.nextId)
  {
    if g.main.Some? {
      MainAgentStepTargetsBelow(g.main.value, g.docs, now, g.nextId);
    }
  }

  /** While running, remaining time never goes up from one tick to the next
      as long as the clock does not run backwards. */
  lemma TickTimeNonIncreasing(cfg: Config, g: Game, input: TickInput, previous: int)
    requires ValidConfig(cfg) && ValidDraws(input.draws)
    requires 0.0 <= g.gameTime <= MatchSeconds
    requires g.gameTime == TimeLeft(ElapsedSeconds(g.startTime, previous)) && previous <= input.now
    ensures Tick(cfg, g, input).gameTime <= g.gameTime
  {
    TimeLeftNonIncreasing(ElapsedSeconds(g.startTime, previous), ElapsedSeconds(g.startTime, input.now));
  }

  // ------------------------------------------------------------- commands

  /** The reset shared by startGame and restart: running, the clock started
      at `now`, counters zeroed, lists emptied, a new player. */
  function ResetMatch(cfg: Config, g: Game, now: int): (r: Game)
    ensures r.running && r.onGameScreen && r.startTime == now && r.gameTime == MatchSeconds
    ensures r.score == 0 && r.revenue == 0 && r.processed == 0 && r.missed == 0 && r.total == 0
    ensures r.bullets == [] && r.docs == [] && r.particles == []
    ensures r.player == InitialPlayer(cfg)
    ensures r.mode == g.mode && r.main == g.main && r.sub == g.sub && r.nextId == g.nextId
    ensures Inv(g) ==> Inv(r)
  {
    g.(running := true, onGameScreen := true, startTime := now, gameTime := MatchSeconds,
       score := 0, revenue := 0, processed := 0, missed := 0, total := 0,
       player := InitialPlayer(cfg), bullets := [], docs := [], particles := [])
  }

  /** setMode: ai mode gets fresh agents, manual mode none. */
  function SetMode(g: Game, mode: Mode): (r: Game)
    ensures r == g.(mode := mode, main := r.main, sub := r.sub)
    ensures mode == Manual ==> r.main.None? && r.sub.None?
    ensures mode == Ai ==> r.main == Some(MainAgent(0, [])) && r.sub == Some(SubAgent(0))
    ensures Inv(g) ==> Inv(r)
  {
    if mode == Ai then g.(mode := mode, main := Some(FreshMainAgent()), sub := Some(FreshSubAgent()))
    else g.(mode := mode, main := None, sub := None)
  }

  /** toggleMode (the M key). */
  function ToggleMode(g: Game): (r: Game)
    ensures r == g.(mode := r.mode, main := r.main, sub := r.sub)
    ensures r.mode != g.mode
    ensures r.main.Some? <==> r.mode == Ai
    ensures r.sub.Some? <==> r.mode == Ai
  {
    SetMode(g, if g.mode == Manual then Ai else Manual)
  }

  /** Toggling twice returns to the original mode, with fresh agents in ai mode. */
  lemma ToggleTwice(g: Game)
    ensures var r := ToggleMode(ToggleMode(g));
            && r == g.(main := r.main, sub := r.sub)
            && (g.mode == Ai ==> r.main == Some(FreshMainAgent()) && r.sub == Some(FreshSubAgent()))
            && (g.mode == Manual ==> r.main.None? && r.sub.None?)
  {}

  /** startGame (game.js) resets the match and creates agents for the
      current mode; start (public/game.js) only sets the clock running and
      leaves counters, lists and agents as they are. */
  function Start(cfg: Config, g: Game, now: int): (r: Game)
    ensures r.running && r.onGameScreen && r.startTime == now && r.gameTime == MatchSeconds
    ensures r.mode == g.mode
    ensures cfg.startResetsMatch ==>
              && r.score == 0 && r.revenue == 0 && r.processed == 0 && r.missed == 0 && r.total == 0
              && r.bullets == [] && r.docs == [] && r.particles == []
              && r.player == InitialPlayer(cfg) && r.nextId == g.nextId
              && (g.mode == Ai ==> r.main == Some(MainAgent(0, [])) && r.sub == Some(SubAgent(0)))
              && (g.mode == Manual ==> r.main.None? && r.sub.None?)
    ensures !cfg.startResetsMatch ==>
              r == g.(running := true, onGameScreen := true, startTime := now, gameTime := MatchSeconds)
    ensures Inv(g) ==> Inv(r)
  {
    if cfg.startResetsMatch then SetMode(ResetMatch(cfg, g, now), g.mode)
    else g.(running := true, onGameScreen := true, startTime := now, gameTime := MatchSeconds)
  }

  /** restart: a fresh match; public/game.js also drops both agents. */
  function Restart(cfg: Config, g: Game, now: int): (r: Game)
    ensures r.running && r.startTime == now && r.gameTime == MatchSeconds
    ensures r.score == 0 && r.revenue == 0 && r.processed == 0 && r.missed == 0 && r.total == 0
    ensures r.bullets == [] && r.docs == [] && r.particles == []
    ensures r.mode == g.mode
    ensures cfg.restartClearsAgents ==> r.main.None? && r.sub.None?
    ensures !cfg.restartClearsAgents ==> r.main == g.main && r.sub == g.sub
    ensures r.player == InitialPlayer(cfg) && r.onGameScreen
    ensures r.nextId == g.nextId
    ensures Inv(g) ==> Inv(r)
  {
    var r := ResetMatch(cfg, g, now);
    if cfg.restartClearsAgents then r.(main := None, sub := None) else r
  }

  /** The restart buttons: setMode(mode) followed by restart(). */
  function RestartButton(cfg: Config, g: Game, mode: Mode, now: int): Game {
    Restart(cfg, SetMode(g, mode), now)
  }

  /** In public/game.js the "restart in ai mode" button leaves the game in
      ai mode with no agents at all. */
  lemma RestartAiLosesAgents(g: Game, now: int)
    ensures var r := RestartButton(PublicGameJs(), g, Ai, now);
            r.mode == Ai && r.main.None? && r.sub.None?
  {}

  /** The restart the ai-mode button evidently intends (and game.js
      implements): a fresh match whose agents are those of its mode. */
  function RestartIntended(cfg: Config, g: Game, mode: Mode, now: int): (r: Game)
    ensures r.running && r.startTime == now && r.gameTime == MatchSeconds
    ensures r.total == 0 && r.docs == [] && r.bullets == [] && r.particles == [] && r.score == 0
    ensures r.mode == mode
    ensures mode == Ai <==> r.main.Some? && r.sub.Some?
    ensures mode == Ai ==> r.main == Some(MainAgent(0, [])) && r.sub == Some(SubAgent(0))
    ensures r.player == InitialPlayer(cfg) && r.onGameScreen
    ensures Inv(r)
  {
    SetMode(ResetMatch(cfg, g, now), mode)
  }

  /** With game.js's constants the restart button already behaves as
      intended. */
  lemma GameJsRestartAsIntended(g: Game, mode: Mode, now: int)
    ensures RestartButton(GameJs(), g, mode, now) == RestartIntended(GameJs(), g, mode, now)
  {}
}

=== FILE: entities.dfy ===
/** The moving entities of the game and their per-tick motion and removal
    rules: Player.update/canShoot, Bullet.update, Document.update and
    Particle.update, together with the filters update() applies after
    moving each list. */
module Entities {
  import opened GameConfig
  import opened Values

  /** A falling document. `id` is its spawn ordinal; it stands for the object
      identity a lasso holds on to. `targetX` is null until a lasso routes it. */
  datatype Document = Document(
    id: nat, x: real, y: real, speed: real,
    cat: Category, value: int, classified: bool,
    lassoed: bool, targetX: Option<real>)

  datatype Bullet = Bullet(x: real, y: real, vx: real, vy: real)

  /** Particles are cosmetic; only their remaining life matters here. */
  datatype Particle = Particle(life: int)

  datatype Player = Player(x: real, y: real, lastShot: int)

  /** The pressed state of the three control keys. */
  datatype Keys = Keys(left: bool, right: bool, fire: bool)

  /** Every document's value lies in its category's band. */
  predicate AllInBand(docs: seq<Document>) {
    forall d | d in docs :: InBand(d.cat, d.value)
  }

  /** Every particle has between 1 and ParticleLife ticks left. */
  predicate AllAlive(ps: seq<Particle>) {
    forall p | p in ps :: 1 <= p.life <= ParticleLife
  }

  /** The fields of a document that no rule ever changes. */
  predicate SameDocument(a: Document, b: Document) {
    a.id == b.id && a.cat == b.cat && a.value == b.value && a.classified == b.classified
  }

  /** Every document's id lies in [lo, hi). */
  predicate IdsIn(docs: seq<Document>, lo: int, hi: int) {
    forall d | d in docs :: lo <= d.id < hi
  }

  // ---------------------------------------------------------------- homing

  /** One horizontal homing step of at most `step` toward `target`. */
  function Home(x: real, target: real, step: real): (x': real)
    requires step >= 0.0
    ensures x <= target ==> x <= x' <= target
    ensures target <= x ==> target <= x' <= x
    ensures -step <= x' - x <= step
    ensures (-step <= target - x <= step) ==> x' == target
    ensures x' != target ==> (x' - x == step || x - x' == step)
  {
    if x < target then (if x + step < target then x + step else target)
    else if x > target then (if x - step > target then x - step else target)
    else x
  }

  function HomeN(x: real, target: real, step: real, n: nat): real
    requires step >= 0.0
    decreases n
  {
    if n == 0 then x else HomeN(Home(x, target, step), target, step, n - 1)
  }

  /** A routed document reaches its lane after enough ticks and then stays:
      n steps of `step` cover any distance up to n * step. */
  lemma {:induction false} HomingArrives(x: real, target: real, step: real, n: nat)
    requires step > 0.0
    requires -(n as real) * step <= target - x <= (n as real) * step
    ensures HomeN(x, target, step, n) == target
    decreases n
  {
    if n > 0 {
      var x1 := Home(x, target, step);
      if x1 == target {
        HomeFixed(target, step, n - 1);
      } else {
        assert -((n - 1) as real) * step <= target - x1 <= ((n - 1) as real) * step;
        HomingArrives(x1, target, step, n - 1);
      }
    }
  }

  lemma {:induction false} HomeFixed(target: real, step: real, n: nat)
    requires step >= 0.0
    ensures HomeN(target, target, step, n) == target
  {
    if n > 0 {
      HomeFixed(target, step, n - 1);
    }
  }

  // -------------------------------------------------------------- documents

  /** Document.update: fall by `speed`, then home toward the lane if routed. */
  function MoveDocument(d: Document, step: real): (e: Document)
    requires step >= 0.0
    ensures SameDocument(d, e)
    ensures e.y == d.y + d.speed && e.speed == d.speed
    ensures e.lassoed == d.lassoed && e.targetX == d.targetX
    ensures d.targetX.None? ==> e.x == d.x
    ensures d.targetX.Some? ==> -step <= e.x - d.x <= step
    ensures d.targetX.Some? && d.x <= d.targetX.value ==> d.x <= e.x <= d.targetX.value
    ensures d.targetX.Some? && d.targetX.value <= d.x ==> d.targetX.value <= e.x <= d.x
  {
    var y := d.y + d.speed;
    match d.targetX
    case None => d.(y := y)
    case Some(t) => d.(y := y, x := Home(d.x, t, step))
  }

  datatype Sweep = Sweep(kept: seq<Document>, missed: nat)

  /** The document pass of update(): move every document, drop those below
      the field and count each one dropped as a miss. */
  function SweepDocuments(docs: seq<Document>, height: real, step: real): (r: Sweep)
    requires step >= 0.0
    ensures |r.kept| + r.missed == |docs|
    ensures forall d | d in r.kept :: d.y <= height
    ensures forall i | 0 <= i < |docs| && MoveDocument(docs[i], step).y <= height ::
              MoveDocument(docs[i], step) in r.kept
    ensures AllInBand(docs) ==> AllInBand(r.kept)
    decreases |docs|
  {
    if |docs| == 0 then Sweep([], 0)
    else
      var rest := SweepDocuments(docs[1..], height, step);
      var d := MoveDocument(docs[0], step);
      assert forall i | 1 <= i < |docs| :: docs[i] == docs[1..][i - 1];
      if d.y > height then Sweep(rest.kept, rest.missed + 1)
      else Sweep([d] + rest.kept, rest.missed)
  }

  /** Every document moved by one update, in order. */
  function MoveAll(docs: seq<Document>, step: real): (r: seq<Document>)
    requires step >= 0.0
    ensures |r| == |docs| && forall i | 0 <= i < |docs| :: r[i] == MoveDocument(docs[i], step)
  {
    seq(|docs|, i requires 0 <= i < |docs| && step >= 0.0 => MoveDocument(docs[i], step))
  }

  /** The sweep is exactly a filter of the moved documents: each moved
      document still on the field is kept as often as it occurs, and none
      below the field is. So `missed` counts precisely the documents that
      fell off. */
  /** Each kept document is one of the inputs after its move. */
  lemma {:induction false} SweepKeepsIdentity(docs: seq<Document>, height: real, step: real)
    requires step >= 0.0
    ensures forall d | d in SweepDocuments(docs, height, step).kept ::
              exists i | 0 <= i < |docs| :: d == MoveDocument(docs[i], step)
  {
    var kept := SweepDocuments(docs, height, step).kept;
    var moved := MoveAll(docs, step);
    SweepIsFilter(docs, height, step);
    forall d | d in kept
      ensures exists i | 0 <= i < |docs| :: d == MoveDocument(docs[i], step)
    {
      assert multiset(kept)[d] > 0;
      assert d in moved;
      var i :| 0 <= i < |moved| && moved[i] == d;
    }
  }

  lemma {:induction false} SweepIsFilter(docs: seq<Document>, height: real, step: real)
    requires step >= 0.0
    ensures forall d :: multiset(SweepDocuments(docs, height, step).kept)[d] ==
                        if d.y <= height then multiset(MoveAll(docs, step))[d] else 0
    decreases |docs|
  {
    if |docs| == 0 {
      assert MoveAll(docs, step) == [];
    } else {
      var m := MoveDocument(docs[0], step);
      var rest := SweepDocuments(docs[1..], height, step);
      var tail := MoveAll(docs[1..], step);
      SweepIsFilter(docs[1..], height, step);
      DocumentFilterCons(m, rest.kept, tail, height);
      MoveAllCons(docs, step);
      assert SweepDocuments(docs, height, step).kept == if m.y > height then rest.kept else [m] + rest.kept;
    }
  }

  lemma MoveAllCons(docs: seq<Document>, step: real)
    requires step >= 0.0 && |docs| > 0
    ensures MoveAll(docs, step) == [MoveDocument(docs[0], step)] + MoveAll(docs[1..], step)
  {
    var r, tail := MoveAll(docs, step), MoveAll(docs[1..], step);
    forall i | 0 <= i < |r|
      ensures r[i] == ([MoveDocument(docs[0], step)] + tail)[i]
    {
      if i > 0 {
        assert docs[1..][i - 1] == docs[i];
      }
    }
  }

  /** How many of `docs` lie below the field. */
  function Fallen(docs: seq<Document>, height: real): nat {
    if |docs| == 0 then 0
    else (if docs[0].y > height then 1 else 0) + Fallen(docs[1..], height)
  }

  /** The sweep's miss count is the number of moved documents that fell
      below the field. */
  lemma {:induction false} SweepCountsFallen(docs: seq<Document>, height: real, step: real)
    requires step >= 0.0
    ensures SweepDocuments(docs, height, step).missed == Fallen(MoveAll(docs, step), height)
    decreases |docs|
  {
    if |docs| > 0 {
      SweepCountsFallen(docs[1..], height, step);
      assert MoveAll(docs, step)[1..] == MoveAll(docs[1..], step);
    }
  }

  lemma DocumentFilterCons(m: Document, rest: seq<Document>, tail: seq<Document>, height: real)
    requires forall d :: multiset(rest)[d] == if d.y <= height then multiset(tail)[d] else 0
    ensures forall d :: multiset(if m.y > height then rest else [m] + rest)[d] ==
                        if d.y <= height then multiset([m] + tail)[d] else 0
  {
    assert multiset([m] + tail) == multiset{m} + multiset(tail);
    assert multiset([m] + rest) == multiset{m} + multiset(rest);
  }

  // ---------------------------------------------------------------- bullets

  function MoveBullet(b: Bullet): Bullet {
    b.(x := b.x + b.vx, y := b.y + b.vy)
  }

  /** The bullet pass of update(): move every bullet, keep it while y > -10. */
  function AdvanceBullets(bs: seq<Bullet>): (r: seq<Bullet>)
    ensures |r| <= |bs|
    ensures forall b | b in r :: b.y > BulletTopLimit
    ensures forall i | 0 <= i < |bs| && MoveBullet(bs[i]).y > BulletTopLimit ::
              MoveBullet(bs[i]) in r
    decreases |bs|
  {
    if |bs| == 0 then []
    else
      var rest := AdvanceBullets(bs[1..]);
      var b := MoveBullet(bs[0]);
      assert forall i | 1 <= i < |bs| :: bs[i] == bs[1..][i - 1];
      if b.y > BulletTopLimit then [b] + rest else rest
  }

  /** Every bullet moved by one update, in order. */
  function MoveBullets(bs: seq<Bullet>): (r: seq<Bullet>)
    ensures |r| == |bs| && forall i | 0 <= i < |bs| :: r[i] == MoveBullet(bs[i])
  {
    seq(|bs|, i requires 0 <= i < |bs| => MoveBullet(bs[i]))
  }

  /** The bullet pass is exactly a filter of the moved bullets: each moved
      bullet below the top limit survives as often as it occurs, and none
      above it does. */
  lemma {:induction false} AdvanceBulletsIsFilter(bs: seq<Bullet>)
    ensures forall b :: multiset(AdvanceBullets(bs))[b] ==
                        if b.y > BulletTopLimit then multiset(MoveBullets(bs))[b] else 0
    decreases |bs|
  {
    if |bs| == 0 {
      assert MoveBullets(bs) == [];
    } else {
      AdvanceBulletsIsFilter(bs[1..]);
      var m := MoveBullet(bs[0]);
      assert MoveBullets(bs) == [m] + MoveBullets(bs[1..]);
      var rest := AdvanceBullets(bs[1..]);
      assert AdvanceBullets(bs) == if m.y > BulletTopLimit then [m] + rest else rest;
      BulletFilterCons(m, rest, MoveBullets(bs[1..]));
    }
  }

  lemma BulletFilterCons(m: Bullet, rest: seq<Bullet>, tail: seq<Bullet>)
    requires forall b :: multiset(rest)[b] == if b.y > BulletTopLimit then multiset(tail)[b] else 0
    ensures forall b :: multiset(if m.y > BulletTopLimit then [m] + rest else rest)[b] ==
                        if b.y > BulletTopLimit then multiset([m] + tail)[b] else 0
  {
    assert multiset([m] + tail) == multiset{m} + multiset(tail);
    assert multiset([m] + rest) == multiset{m} + multiset(rest);
  }

  /** A bullet fired by the player: centred on the ship, straight up at
      BulletSpeed, with a horizontal drift of (draw - 0.5) * spread. */
  function PlayerBullet(p: Player, mode: Mode, draw: real): (b: Bullet)
    requires IsDraw(draw)
    ensures b.vy == -BulletSpeed
    ensures mode == Ai ==> b.vx == 0.0
    ensures mode == Manual ==> -ManualSpread / 2.0 <= b.vx < ManualSpread / 2.0
    ensures b.x + BulletWidth / 2.0 == p.x + PlayerWidth / 2.0 && b.y == p.y
  {
    var spread := if mode == Ai then 0.0 else ManualSpread;
    Bullet(p.x + PlayerWidth / 2.0 - BulletWidth / 2.0, p.y, (draw - 0.5) * spread, -BulletSpeed)
  }

  // -------------------------------------------------------------- particles

  /** The particle pass of update(): one tick of life each, keep while alive. */
  function AgeParticles(ps: seq<Particle>): (r: seq<Particle>)
    ensures |r| <= |ps|
    ensures AllAlive(ps) ==> AllAlive(r)
    decreases |ps|
  {
    if |ps| == 0 then []
    else
      var rest := AgeParticles(ps[1..]);
      assert forall i | 1 <= i < |ps| :: ps[i] == ps[1..][i - 1];
      if ps[0].life - 1 > 0 then [Particle(ps[0].life - 1)] + rest else rest
  }

  /** Every particle one tick older, in order. */
  function Aged(ps: seq<Particle>): (r: seq<Particle>)
    ensures |r| == |ps| && forall i | 0 <= i < |ps| :: r[i] == Particle(ps[i].life - 1)
  {
    seq(|ps|, i requires 0 <= i < |ps| => Particle(ps[i].life - 1))
  }

  /** The particle pass is exactly a filter of the aged particles: each aged
      particle with life left survives as often as it occurs (a burst of ten
      identical particles stays ten), and none without life does. */
  lemma {:induction false} AgeParticlesIsFilter(ps: seq<Particle>)
    ensures forall q :: multiset(AgeParticles(ps))[q] == if q.life > 0 then multiset(Aged(ps))[q] else 0
    decreases |ps|
  {
    if |ps| == 0 {
      assert Aged(ps) == [];
    } else {
      AgeParticlesIsFilter(ps[1..]);
      var m := Particle(ps[0].life - 1);
      AgedCons(ps);
      AgeParticlesCons(ps);
      ParticleFilterCons(m, AgeParticles(ps[1..]), Aged(ps[1..]), AgeParticles(ps), Aged(ps));
    }
  }

  lemma AgedCons(ps: seq<Particle>)
    requires |ps| > 0
    ensures Aged(ps) == [Particle(ps[0].life - 1)] + Aged(ps[1..])
  {
    var lhs, rhs := Aged(ps), [Particle(ps[0].life - 1)] + Aged(ps[1..]);
    assert |lhs| == |rhs|;
    forall i | 0 <= i < |lhs|
      ensures lhs[i] == rhs[i]
    {
      if i > 0 {
        assert rhs[i] == Aged(ps[1..])[i - 1];
      }
    }
  }

  lemma AgeParticlesCons(ps: seq<Particle>)
    requires |ps| > 0
    ensures AgeParticles(ps) == if ps[0].life - 1 > 0 then [Particle(ps[0].life - 1)] + AgeParticles(ps[1..])
                                else AgeParticles(ps[1..])
  {}

  lemma ParticleFilterCons(m: Particle, rest: seq<Particle>, tail: seq<Particle>, r: seq<Particle>, src: seq<Particle>)
    requires forall q :: multiset(rest)[q] == if q.life > 0 then multiset(tail)[q] else 0
    requires r == (if m.life > 0 then [m] + rest else rest) && src == [m] + tail
    ensures forall q :: multiset(r)[q] == if q.life > 0 then multiset(src)[q] else 0
  {
    assert multiset([m] + tail) == multiset{m} + multiset(tail);
    assert multiset([m] + rest) == multiset{m} + multiset(rest);
  }

  /** `n` fresh particles (a hit burst is 10, a miss burst 5). */
  function Burst(n: nat): (r: seq<Particle>)
    ensures |r| == n && AllAlive(r)
    ensures forall q | q in r :: q.life == ParticleLife
  {
    seq(n, _ => Particle(ParticleLife))
  }

  /** The particles left after `k` particle passes. */
  function AgeN(ps: seq<Particle>, k: nat): seq<Particle>
    decreases k
  {
    if k == 0 then ps else AgeParticles(AgeN(ps, k - 1))
  }

  /** One particle pass on a single particle. */
  lemma AgeOne(life: int)
    ensures AgeParticles([Particle(life)]) == if life > 1 then [Particle(life - 1)] else []
  {
    assert [Particle(life)][1..] == [];
  }

  /** A particle with `life` ticks left has life - k after k < life passes
      and is gone after exactly `life` passes. */
  lemma {:induction false} Lifespan(life: nat, k: nat)
    requires 1 <= life && k <= life
    ensures k < life ==> AgeN([Particle(life)], k) == [Particle(life - k)]
    ensures k == life ==> AgeN([Particle(life)], k) == []
    decreases k
  {
    if k > 0 {
      Lifespan(life, k - 1);
      var left: int := life - (k - 1);
      var prev := AgeN([Particle(life)], k - 1);
      assert prev == [Particle(left)];
      AgeOne(left);
      assert AgeN([Particle(life)], k) == AgeParticles(prev);
    }
  }

  /** A new particle lives for exactly ParticleLife updates: after k < 30
      updates it has 30 - k left, and the 30th update removes it. */
  lemma ParticleLifespan(k: nat)
    requires k <= ParticleLife as nat
    ensures k < ParticleLife as nat ==> AgeN([Particle(ParticleLife)], k) == [Particle(ParticleLife - k)]
    ensures k == ParticleLife as nat ==> AgeN([Particle(ParticleLife)], k) == []
  {
    Lifespan(ParticleLife as nat, k);
  }

  // ----------------------------------------------------------------- player

  /** Player.update: left while x > 0, then right while x < edge - width.
      Neither move is clamped, so one step may cross the edge. */
  function MovePlayer(cfg: Config, p: Player, keys: Keys): (q: Player)
    requires cfg.playerSpeed > 0.0
    ensures q.y == p.y && q.lastShot == p.lastShot
    ensures q.x == p.x - cfg.playerSpeed || q.x == p.x || q.x == p.x + cfg.playerSpeed
    ensures q.x < p.x ==> keys.left && p.x > 0.0
    ensures q.x > p.x ==> keys.right && p.x < cfg.playerRightEdge - PlayerWidth
    ensures !keys.left && !keys.right ==> q == p
    ensures keys.left && !keys.right ==> q.x == if p.x > 0.0 then p.x - cfg.playerSpeed else p.x
    ensures !keys.left && keys.right ==>
              q.x == if p.x < cfg.playerRightEdge - PlayerWidth then p.x + cfg.playerSpeed else p.x
    ensures keys.left && keys.right && p.x > 0.0 ==>
              q.x == if p.x - cfg.playerSpeed < cfg.playerRightEdge - PlayerWidth then p.x else p.x - cfg.playerSpeed
    ensures keys.left && keys.right && p.x <= 0.0 ==>
              q.x == if p.x < cfg.playerRightEdge - PlayerWidth then p.x + cfg.playerSpeed else p.x
  {
    var x1 := if keys.left && p.x > 0.0 then p.x - cfg.playerSpeed else p.x;
    var x2 := if keys.right && x1 < cfg.playerRightEdge - PlayerWidth then x1 + cfg.playerSpeed else x1;
    p.(x := x2)
  }

  /** The player stays within one step of the field: left of 0 by less than
      a step, right of the edge by less than a step. */
  lemma PlayerStaysNearField(cfg: Config, p: Player, keys: Keys)
    requires cfg.playerSpeed > 0.0
    requires -cfg.playerSpeed < p.x < cfg.playerRightEdge - PlayerWidth + cfg.playerSpeed
    ensures var q := MovePlayer(cfg, p, keys);
            -cfg.playerSpeed < q.x < cfg.playerRightEdge - PlayerWidth + cfg.playerSpeed
  {}

  /** Movement is not clamped: in public/game.js a player at x = 2 pressing
      left ends at x = -3. */
  lemma PlayerCanLeaveField()
    ensures MovePlayer(PublicGameJs(), Player(2.0, 550.0, 0), Keys(true, false, false)).x == -3.0
  {}

  function Cooldown(mode: Mode): int {
    if mode == Ai then AiCooldown else ManualCooldown
  }

  /** Player.canShoot: strictly more than the mode's cooldown since the last shot. */
  predicate CanShoot(mode: Mode, lastShot: int, now: int) {
    now - lastShot > Cooldown(mode)
  }

  /** The cooldown is strict, and shorter in ai mode than in manual mode. */
  lemma ShotCooldown(lastShot: int, now: int)
    ensures CanShoot(Manual, lastShot, now) ==> CanShoot(Ai, lastShot, now)
    ensures !CanShoot(Ai, lastShot, lastShot + 100) && CanShoot(Ai, lastShot, lastShot + 101)
    ensures !CanShoot(Manual, lastShot, lastShot + 500) && CanShoot(Manual, lastShot, lastShot + 501)
  {}
}

=== FILE: values.dfy ===
/** Document categories, their value bands and the lanes the sorter routes
    documents to (Document.getValue, spawnDocument's type draw and
    Lasso.moveDocumentToLane). */
module Values {
  import opened GameConfig

  /** A uniform draw in [0, 1), as Math.random promises. */
  predicate IsDraw(r: real) { 0.0 <= r < 1.0 }

  /** `types[Math.floor(Math.random() * types.length)]`. */
  function CategoryFromDraw(r: real): (c: Category)
    requires IsDraw(r)
    ensures c == High <==> r < 0.25
    ensures c == Medium <==> 0.25 <= r < 0.5
    ensures c == Low <==> 0.5 <= r < 0.75
    ensures c == NoValue <==> 0.75 <= r
  {
    var i := (r * 4.0).Floor;
    if i == 0 then High else if i == 1 then Medium else if i == 2 then Low else NoValue
  }

  /** Inclusive bounds of the values a category can carry. */
  function BandLow(c: Category): int {
    match c
    case High => 1000
    case Medium => 500
    case Low => 100
    case NoValue => 0
  }

  function BandHigh(c: Category): int {
    match c
    case High => 1499
    case Medium => 998
    case Low => 498
    case NoValue => 0
  }

  predicate InBand(c: Category, v: int) { BandLow(c) <= v <= BandHigh(c) }

  /** getValue: base + draw * width, rounded down; no-value is always 0. */
  function DrawValue(c: Category, r: real): int {
    match c
    case High => (1000.0 + r * 500.0).Floor
    case Medium => (500.0 + r * 499.0).Floor
    case Low => (100.0 + r * 399.0).Floor
    case NoValue => 0
  }

  /** Every value drawn lies in its category's band. */
  lemma DrawValueInBand(c: Category, r: real)
    requires IsDraw(r)
    ensures InBand(c, DrawValue(c, r))
  {
    match c
    case High =>
      assert 1000.0 <= 1000.0 + r * 500.0 < 1500.0;
    case Medium =>
      assert 500.0 <= 500.0 + r * 499.0 < 999.0;
    case Low =>
      assert 100.0 <= 100.0 + r * 399.0 < 499.0;
    case NoValue =>
  }

  /** Conversely, every value of the band is drawn by some draw, so the band
      is exactly the set of values getValue can produce. */
  lemma BandIsReachable(c: Category, v: int)
    requires InBand(c, v)
    ensures exists r :: IsDraw(r) && DrawValue(c, r) == v
  {
    match c
    case High =>
      var r := (v - 1000) as real / 500.0;
      assert 1000.0 + r * 500.0 == v as real;
      assert IsDraw(r) && DrawValue(c, r) == v;
    case Medium =>
      var r := (v - 500) as real / 499.0;
      assert 500.0 + r * 499.0 == v as real;
      assert IsDraw(r) && DrawValue(c, r) == v;
    case Low =>
      var r := (v - 100) as real / 399.0;
      assert 100.0 + r * 399.0 == v as real;
      assert IsDraw(r) && DrawValue(c, r) == v;
    case NoValue =>
      assert IsDraw(0.0) && DrawValue(c, 0.0) == v;
  }

  /** moveDocumentToLane: the lane x chosen from a document's value. */
  function LaneFor(value: int): real {
    if value == 0 then 100.0
    else if value < 500 then 200.0
    else if value < 1000 then 400.0
    else 600.0
  }

  /** The lane each category is meant to end up in. */
  function CategoryLane(c: Category): real {
    match c
    case NoValue => 100.0
    case Low => 200.0
    case Medium => 400.0
    case High => 600.0
  }

  /** Routing by value sends every well-formed document to its own
      category's lane. */
  lemma LaneMatchesCategory(c: Category, v: int)
    requires InBand(c, v)
    ensures LaneFor(v) == CategoryLane(c)
  {}

  /** A more valuable document is never routed to a lane further left. */
  lemma LaneMonotone(v1: int, v2: int)
    requires 0 <= v1 <= v2
    ensures LaneFor(v1) <= LaneFor(v2)
  {}
}
